=== FILE: README.md ===
# RoCC analog accelerator command interface, in Dafny

This project models `RoCCAnalog<T>` (utils/sst-elements/newrocc.h), the
command interface between a host core and an analog matrix–vector
accelerator. The host pushes commands into a queue. On each clock tick an
idle interface takes the head command and decodes its `func7`:

- 1 loads a matrix from memory;
- 2 loads an input vector;
- 3 starts a computation;
- 4 stores an output vector to memory;
- 5 moves an output vector to an input;
- any other value is unknown.

Transfers are cut into cache-line chunks, with exactly one memory request
outstanding at a time. A per-array busy table tracks computations, and a
single response slot hands the completion value (0 for success, 1 for
failure) back to the host once. A matrix load reads
`arrayOutputSize × arrayInputSize × inputOperandSize` bytes and a vector
load `arrayInputSize × inputOperandSize` (newrocc.h:252-266), so a 4 × 4
array of 4-byte elements reads 64 bytes per matrix.

The model is functional. `State` is an immutable record holding:

- the queue;
- the busy flag;
- the response slot;
- the issue counter;
- the busy table;
- the pending operation.

Every event is a pure function from the state before to an `Outcome`, which
is the state after plus the effects, in order, that the interface has on
its collaborators. An effect is a memory `Read`/`Write`, an element store
`SetItem` into a matrix or input vector, `BeginComputation`, or
`MoveOutputToInput`.

Modules:

- `Basics` (basics.dfy): `Option` and `Min`.
- `Words` (words.dfy): 64-bit words and the little-endian byte codec that
  stands for `memcpy` of an element, with its round trips.
- `Chunking` (chunking.dfy): the chunk-size rule and the chunk plan of a
  whole transfer, with tiling and line-boundary properties.
- `RoCCState` (state.dfy): configuration, commands, the pending operation,
  effects, and the invariant `Inv` every reachable state keeps.
- `RoCC` (rocc.dfy): one function per operation of the class.
- `RoCCProps` (props.dfy): what each single event does.
- `RoCCProtocol` (protocol.dfy): whole transfers against a memory that
  answers every request. It states which reads and writes go out, which
  element stores reach the array, and which bytes reach memory.
- `RoCCRuns` (runs.dfy): arbitrary event sequences. It covers the invariant,
  one request in flight, and the queue bound for a host that checks
  `RoCCFull`.

The compute array's `getOutputVector` answer is a parameter `out` of
`Tick`. Memory and the array appear only through effects and through the
response events a run feeds in.

## Model

| member | source | states |
|---|---|---|
| RoCC.LineSizeFor | utils/sst-elements/newrocc.h:111-112 | a non-zero line size reported by memory is adopted, and a zero report falls back to 64 bytes |
| RoCC.Init | utils/sst-elements/newrocc.h:108-117 | init adopts memory's reported line size (64 for a report of 0) and changes nothing else in the configuration; nothing is queued or outstanding, the interface is idle with no response and no pending operation, the invariant holds, and the busy table has one clear entry per configured array |
| RoCC.RoCCFull | utils/sst-elements/newrocc.h:95 | the queue is reported full exactly when one more push would take it beyond `max_instructions` commands |
| RoCC.IsBusy | utils/sst-elements/newrocc.h:96 | `isBusy` reports the busy flag; `RoCCProps.BusyMeansServing` states that in a reachable state it holds exactly while an operation is pending, from the tick that takes the head (`RoCCProps.TickLoad`, `TickCompute`, `TickStore`) until `RoCCProps.CompletionRetiresHead` |
| RoCC.RoCCQueueSize | utils/sst-elements/newrocc.h:97 | `roccQueueSize` reports the queue length; `RoCCProps.PushCapacity` and `RoCCRuns.RunQueueSize` state how pushes and completions move it |
| RoCC.Push | utils/sst-elements/newrocc.h:99-102 | the command is appended at the tail, earlier commands are untouched, the issue count goes up by one and nothing else changes |
| RoCC.Respond | utils/sst-elements/newrocc.h:104-106 | the stored response is returned and the slot is left empty; nothing else changes |
| RoCC.CompleteRoCC | utils/sst-elements/newrocc.h:365-376 | exactly the queue head is removed, busy is cleared, the operation is reset to neutral, and the response carries the head's `rd` and the value |
| RoCC.SendNextReadChunk | utils/sst-elements/newrocc.h:209-221 | once the offset reaches the total the command completes with 0 and nothing is sent; otherwise the state is unchanged and exactly one read goes out at base plus offset (wrapping at 64 bits), of 1 to `lineSize` bytes, never past the total; the first is exactly `min(lineSize - addr mod lineSize, total)` bytes and stays within its line, and a later one is exactly `min(lineSize, total - offset)`, a whole line or the rest of the transfer |
| RoCC.SendNextWriteChunk | utils/sst-elements/newrocc.h:224-243 | the same as for reads, and the one write carries the payload's bytes from the offset for its size |
| RoCC.StartSetMatrix | utils/sst-elements/newrocc.h:246-256 | a zero-byte matrix completes with 0 at once; otherwise the load is recorded against the array with the matrix total from offset 0, nothing else changes, and one read goes out at the base of exactly `min(lineSize - base mod lineSize, total)` bytes, within its line |
| RoCC.StartLoadVector | utils/sst-elements/newrocc.h:258-267 | the same for an input vector of `arrayInputSize` elements |
| RoCC.Resize | utils/sst-elements/newrocc.h:272 | `resize` gives exactly `n` entries, keeps the existing prefix and pads with clear entries |
| RoCC.GrowTableAsWritten | utils/sst-elements/newrocc.h:272 | as written: a table too short for `aid` is resized to `(aid + 1) mod 2^32` entries, old entries kept; `RoCC.GrowTableAsWrittenWraps` shows the wrap |
| RoCC.GrowTable | utils/sst-elements/newrocc.h:272 | the busy table grown for an array always has an entry for it: exactly `aid + 1` entries when it was too short, unchanged otherwise, with old entries kept and new ones clear |
| RoCC.GrowTableAsWrittenWraps | utils/sst-elements/newrocc.h:272-273 | with array ID 0xFFFFFFFF, the 32-bit `arrayID + 1` wraps and the table as written shrinks to nothing, while the intended table has 2^32 entries |
| RoCC.GrowTableAgrees | utils/sst-elements/newrocc.h:272 | for every other array ID the code as written and the intended growth agree |
| RoCC.StartCompute | utils/sst-elements/newrocc.h:269-275 | the compute is recorded against the array, the queue and response are kept, the table has an entry for the array that is set (the intended growth `RoCC.GrowTable`; see Findings for array ID 0xFFFFFFFF), every other entry is kept, new entries are clear, and the one effect starts the computation |
| RoCC.StartStoreVector | utils/sst-elements/newrocc.h:277-298 | the payload packs the first `arrayOutputSize` outputs at the output width and is exactly the store total; a zero total completes with 0; otherwise the store is recorded with that payload from offset 0 and one write of the payload's first `min(lineSize - dst mod lineSize, total)` bytes goes out to the destination, within its line |
| RoCC.Tick | utils/sst-elements/newrocc.h:119-124 | a busy interface or an empty queue changes nothing; otherwise the invariant is kept |
| RoCC.HandleReadResp | utils/sst-elements/newrocc.h:301-307 | a failed response, or one while no load is pending, completes the command with 1 and does nothing else; the invariant is kept |
| RoCC.StoreReadData | utils/sst-elements/newrocc.h:309-334 | the successful read path keeps the invariant |
| RoCC.HandleWriteResp | utils/sst-elements/newrocc.h:337-349 | a failed response, or one while no store is pending, completes the command with 1 and does nothing else; the invariant is kept |
| RoCC.AdvanceWrite | utils/sst-elements/newrocc.h:351-361 | the successful write path keeps the invariant |
| RoCC.HandleArrayEvent | utils/sst-elements/newrocc.h:184-190 | an array event keeps the invariant and asks nothing of memory or the array |
| RoCC.RequestsFilter | utils/sst-elements/newrocc.h:218-219 | the memory requests picked out of an effect list are exactly its reads and writes |
| RoCC.ItemsAreNotRequests | utils/sst-elements/newrocc.h:312-325 | the element stores of a read response contain no memory request |
| RoCCState.OutstandingMatchesOp | utils/sst-elements/newrocc.h:208-243 | a reachable state waits on memory exactly while it serves a load or store, on a read for a load and on a write for a store |
| RoCCProps.TickUnknownOpcode | utils/sst-elements/newrocc.h:162-166 | an unknown `func7` completes the head with 1 in the same tick, with no effect |
| RoCCProps.TickMoveVector | utils/sst-elements/newrocc.h:154-160 | a move makes one output-to-input move between the arrays named by the low 32 bits of the operands and completes with 0 in the same tick |
| RoCCProps.TickCompute | utils/sst-elements/newrocc.h:269-275 | a compute keeps the command, grows the table to `aid + 1` entries when it is too short (the intended growth; see Findings for array ID 0xFFFFFFFF), marks the array busy, leaves every other entry alone, keeps new entries clear and starts the computation |
| RoCCProps.TickLoad | utils/sst-elements/newrocc.h:246-267 | a load reads the configured total from the first operand into the array named by the second; a zero total completes with 0 at once, otherwise exactly one read of the first chunk goes out and is the outstanding request |
| RoCCProps.ByteTotals | utils/sst-elements/newrocc.h:252-254 | the vector and store totals are the exact products, and the matrix total is the exact product whenever it fits in 64 bits |
| RoCCProps.FourByFourExample | utils/sst-elements/newrocc.h:246-256 | a 4 × 4 array of 4-byte elements has a 64-byte matrix and a 16-byte vector, and an aligned matrix load over 64-byte lines is one read |
| RoCCProps.TickStore | utils/sst-elements/newrocc.h:277-298 | a store packs the first `arrayOutputSize` outputs into a payload of exactly the total; a zero total completes with 0, otherwise the first chunk's slice is written to the first operand and is the outstanding request |
| RoCCProps.ReadResponseAdvances | utils/sst-elements/newrocc.h:309-334 | a response with the requested bytes stores one element per operand width into the right target, advances the offset by its length, then sends exactly the next read or completes with 0 at the total |
| RoCCProps.WriteResponseAdvances | utils/sst-elements/newrocc.h:351-361 | the size recomputed on acknowledgement equals the size of the write that was sent; the offset advances by it, then the next slice is written or the store completes with 0 at the total |
| RoCCProps.ArrayEventEffect | utils/sst-elements/newrocc.h:184-190 | the event clears its array's busy flag only when the table reaches it, leaves every other entry alone, and completes a pending compute with 0 |
| RoCCProps.StaleArrayEventEndsCompute | utils/sst-elements/newrocc.h:186-188 | an event for another array than the one being waited on still completes the compute, while the awaited array stays busy |
| RoCCProps.CompletionRetiresHead | utils/sst-elements/newrocc.h:365-376 | completion keeps the invariant, leaves nothing outstanding and one command fewer, and `respond` hands the response out exactly once |
| RoCCProps.BusyMeansServing | utils/sst-elements/newrocc.h:96 | in a reachable state the interface is busy exactly while an operation is pending, and then the head of the queue is the command served, a transfer or a compute |
| RoCCProps.PushKeepsInv | utils/sst-elements/newrocc.h:99-102 | a push keeps the invariant, the current command and any outstanding request |
| RoCCProps.PushCapacity | utils/sst-elements/newrocc.h:95-102 | a push made while `RoCCFull` is false stays within capacity; one made while it is true goes one beyond it |
| Words.DecodeEncode | utils/sst-elements/newrocc.h:291-294 | decoding the bytes of a value encoded at width `w` gives the value reduced to `w` bytes |
| Words.EncodeDecode | utils/sst-elements/newrocc.h:314-315 | encoding the value of a byte string at its own width gives the bytes back |
| Words.PackLayout | utils/sst-elements/newrocc.h:290-295 | output value `i` occupies exactly bytes `[i*w, (i+1)*w)` of the payload, encoded little-endian |
| Words.UnpackPack | utils/sst-elements/newrocc.h:286-296 | reading the payload back width by width gives every packed value reduced to the output width |
| Chunking.ChunkSize | utils/sst-elements/newrocc.h:212-216 | every request is between 1 and `lineSize` bytes and never runs past the total |
| Chunking.ChunkSizeOnLine | utils/sst-elements/newrocc.h:212-216 | the first request is `min(line - addr mod line, total)` and stays in its line; later ones are `min(line, remaining)`; each one finishes the transfer, ends the first line exactly, or is a whole line |
| Chunking.ChunksTile | utils/sst-elements/newrocc.h:209-221 | the chunk plan starts at the offset, each chunk starts where the previous ended, the sizes sum to the bytes left, and every chunk is 1 to `lineSize` bytes |
| Chunking.ChunksFollow | utils/sst-elements/newrocc.h:209-221 | the plan is exactly the sequence the chunker's step-by-step rule produces, ending exactly when the total is reached |
| Chunking.ChunksWithin | utils/sst-elements/newrocc.h:209-221 | no chunk of the plan ends past the total |
| Chunking.ChunksCover | utils/sst-elements/newrocc.h:209-221 | the plan covers `[offset, total)` contiguously |
| Chunking.CoversWithin | utils/sst-elements/newrocc.h:209-221 | chunks covering a range end within it and their sizes add up to its length |
| Chunking.ChunksStayInLines | utils/sst-elements/newrocc.h:212-216 | from offset 0, no chunk crosses a line boundary, every chunk after the first starts on one, the middle chunks are whole lines, and the first ends at or before the end of its line, exactly at it whenever another chunk follows |
| Chunking.ChunksFullLines | utils/sst-elements/newrocc.h:214-216 | every chunk but the last is a whole line, except possibly the first of a transfer |
| Chunking.FollowsOnLines | utils/sst-elements/newrocc.h:212-216 | any plan that follows the chunker from offset 0 keeps each chunk within one line |
| Chunking.UnalignedExample | utils/sst-elements/newrocc.h:212-216 | 32 bytes from 0x2008 over 16-byte lines go out as 8, 16 and 8 bytes |
| Chunking.ShortAlignedExample | utils/sst-elements/newrocc.h:212-216 | an aligned transfer shorter than a line is one request |
| RoCCProtocol.ItemsCount | utils/sst-elements/newrocc.h:313-318 | a response makes one element store per started operand width |
| RoCCProtocol.ItemAt | utils/sst-elements/newrocc.h:313-318 | the `k`-th store goes to index `(before + k*w) / w` and carries bytes `[k*w, k*w + w)` of the response, fewer at the end |
| RoCCProtocol.ItemsLayout | utils/sst-elements/newrocc.h:313-325 | the element stores of one response in closed form: their number and each one's index and bytes |
| RoCCProtocol.ItemsSplit | utils/sst-elements/newrocc.h:313-325 | splitting a response after whole elements splits its stores the same way, with indices continuing |
| RoCCProtocol.ItemsFilter | utils/sst-elements/newrocc.h:312-325 | the element stores picked out of an effect list are exactly its `SetItem`s |
| RoCCProtocol.ReadRequestsLayout | utils/sst-elements/newrocc.h:212-218 | read `k` of a plan asks for chunk `k`'s size at base plus its offset, wrapping at 64 bits |
| RoCCProtocol.ReadRequestIsPlanned | utils/sst-elements/newrocc.h:212-218 | the read a pending load sends is the chunker's chunk at its offset |
| RoCCProtocol.WriteRequestIsPlanned | utils/sst-elements/newrocc.h:227-237 | the write a pending store sends is the chunker's chunk at its offset with that slice of the payload |
| RoCCProtocol.TransferItems | utils/sst-elements/newrocc.h:313-325 | the element stores a load is meant to make: one per started element width of the transfer, element `k` at index `k` with bytes `[k*w, k*w + w)`, fewer at the end |
| RoCCProtocol.SplitElementAsWritten | utils/sst-elements/newrocc.h:309-334 | as written, 8 bytes of 4-byte elements from 2 bytes before a 64-byte line end are read as 2 and 6 bytes; the second response stores transfer bytes 2 to 6 as element 0 and 6 to 8 as element 1, where the intended stores are bytes 0 to 4 and 4 to 8 |
| RoCCProtocol.ChunkItemsWhole | utils/sst-elements/newrocc.h:309-334 | when every chunk holds whole elements, the stores made chunk by chunk are those of one response carrying all the bytes |
| RoCCProtocol.AlignedChunksWhole | utils/sst-elements/newrocc.h:212-216 | element-aligned base, lines of whole elements and a total of whole elements give chunks of whole elements |
| RoCCProtocol.LoadStepState | utils/sst-elements/newrocc.h:309-334 | answering the outstanding read with memory's bytes stores that chunk's elements and sends the next chunk's read or completes with 0 |
| RoCCProtocol.LoadStep | utils/sst-elements/newrocc.h:301-335 | each response moves a load one chunk along its plan, keeping the invariant |
| RoCCProtocol.ServeLoad | utils/sst-elements/newrocc.h:301-335 | answering every read from memory completes the load with 0; the later reads are the rest of the plan in order, and the element stores are each chunk's stores; the result is `RoCCRuns.Run` over the events that answer each remaining chunk with memory's bytes |
| RoCCProtocol.LoadEffectsKinds | utils/sst-elements/newrocc.h:301-335 | effects whose requests are a plan's reads contain no write, and each read and element store among them is one of the planned ones |
| RoCCProtocol.LoadCommand | utils/sst-elements/newrocc.h:246-267 | a load from idle reads exactly the chunk plan, writes nothing to memory, completes with 0, and stores each chunk's elements; with whole-element chunks these are `RoCCProtocol.TransferItems`, element `k` of the transfer at index `k`; the result is `RoCCRuns.Run` over one tick followed by memory's answer to each chunk of the plan |
| RoCCProtocol.LoadRunStep | utils/sst-elements/newrocc.h:301-335 | while a load is pending, answering its outstanding read with memory's bytes extends the run by one enabled event whose effects are appended to those so far |
| RoCCProtocol.StoreRunStep | utils/sst-elements/newrocc.h:337-362 | while a store is pending, a successful acknowledgement extends the run by one enabled event whose effects are appended to those so far |
| RoCCProtocol.PlannedWritesCoverPayload | utils/sst-elements/newrocc.h:233-234 | the writes of chunks covering a range carry exactly that slice of the payload, in order |
| RoCCProtocol.StoreEffectsWrites | utils/sst-elements/newrocc.h:359-360 | the acknowledgements of a store send the writes of chunks 1 onwards, each with its slice |
| RoCCProtocol.StoreStep | utils/sst-elements/newrocc.h:337-362 | each acknowledgement moves a store one chunk along its plan, keeping the invariant |
| RoCCProtocol.ServeStore | utils/sst-elements/newrocc.h:337-362 | acknowledging every write completes the store with 0, and the writes sent are the whole plan with each chunk's payload slice; the result is `RoCCRuns.Run` over one successful acknowledgement per chunk |
| RoCCProtocol.StoreCommand | utils/sst-elements/newrocc.h:277-298 | a store from idle writes exactly the chunk plan; the writes carry the whole payload in order, which reads back as the output values reduced to the output width; it completes with 0; the result is `RoCCRuns.Run` over one tick followed by one successful acknowledgement per chunk |
| RoCCProtocol.PlannedWritesPayload | utils/sst-elements/newrocc.h:224-243 | writing the whole plan of a payload sends exactly the payload |
| RoCCRuns.Step | utils/sst-elements/newrocc.h:171-190 | every event the interface can take keeps the invariant |
| RoCCRuns.Run | utils/sst-elements/newrocc.h:171-190 | any sequence of enabled events keeps the invariant |
| RoCCRuns.RunSnoc | utils/sst-elements/newrocc.h:171-190 | a run extended by one enabled event ends where that event leads from the run's end, with its effects after the run's |
| RoCCRuns.StepQueue | utils/sst-elements/newrocc.h:365-376 | only a push grows the queue, by its command at the tail; every other event leaves the queue alone or retires exactly its head |
| RoCCRuns.RunQueueSize | utils/sst-elements/newrocc.h:97-102 | over any run the queue size is at most the starting size plus the pushes and at least that minus the other events: only pushes add, and every other event retires at most one command |
| RoCCRuns.PoliteRunStaysBounded | utils/sst-elements/newrocc.h:95-102 | a host that checks `RoCCFull` before every push never queues more than `max_instructions` commands |
| RoCCRuns.ImpoliteOverfills | utils/sst-elements/newrocc.h:99-102 | a push into a full queue is not refused and overfills it |
| RoCCRuns.SingleFlight | utils/sst-elements/newrocc.h:208-243 | an event issues at most one memory request, that request is then the outstanding one, and nothing is issued while a request is outstanding except in answer to a memory response |
| RoCCRuns.TickRequests | utils/sst-elements/newrocc.h:119-168 | a tick issues at most one request, which is then outstanding, and none while busy |
| RoCCRuns.ReadRequestsAfter | utils/sst-elements/newrocc.h:332-334 | a read response issues at most one request, the next read, which is then outstanding |

## Left out

- Construction, the clock-parameter check, loading the memory and array subcomponents, logging, statistics objects and `delete`-based ownership are not modelled; `issued` counts pushes in place of the statistic.
- The memory service, the compute array and the host are not modelled as code. Their requests appear as `Effect` values, and their answers as events or as the `out` parameter of `Tick`.
- `init` forwarding to memory and the array is left out. Only the line-size default and the initial busy table are kept.
- The CrossSim compute-array headers, quantisation, solvers and experiment programs are not part of this model (foreign calls, floating point, threads).
- `processIncomingRequest` is modelled as the two response events of `RoCCRuns.Event`. Its "unexpected response" branch, which only logs, is left out.
- Element values are kept as bit patterns, `memcpy` as little-endian decode and encode of `inputOperandSize` or `outputOperandSize` bytes. This assumes a little-endian host and operand widths no larger than `T`.
- A read response whose length is not a multiple of the operand width makes the source copy past the end of the response for its last element. The model stores only the bytes there are.
- Element indices are kept as natural numbers. The `static_cast<int>` of the index is not modelled; it only matters beyond 2^31 elements.
- The `static_cast<uint32_t>` of each chunk size is the identity here, because a chunk is at most one 32-bit line.
- A memory response arriving while the interface is idle dereferences a null current command in the source. `HandleReadResp`, `HandleWriteResp` and `RoCCRuns.Enabled` require `busy` instead.
- `push` (newrocc.h:99-102) appends without checking capacity; the capacity is only reported by `RoCCFull` (newrocc.h:95). `RoCCRuns.PoliteRunStaysBounded` and `RoCCRuns.ImpoliteOverfills` state both sides.
- RoCCState.ElementItems: has no contract of its own; `RoCCProtocol.ItemsCount`, `RoCCProtocol.ItemAt` and `RoCCProtocol.ItemsLayout` state what it computes, over all inputs.
- RoCCProps.ArrayEventEffect: the array event does not check that its array is the one a compute waits on. This is observed behaviour, stated as such and not corrected.
- RoCCProtocol.LoadCommand: the element stores equal the intended `RoCCProtocol.TransferItems` only when every chunk holds whole elements (`RoCCProtocol.AlignedChunksWhole` gives a sufficient condition). Otherwise they are stated chunk by chunk, as the source makes them; see Findings for the element shift this causes.
- Chunking.FollowsOnLines: line boundaries are taken on `base + offset` without the 64-bit wrap, as for `Chunking.ChunksStayInLines` below.
- Chunking.ChunksStayInLines: line boundaries are taken on `base + offset` without the 64-bit wrap. They agree with the source's wrapped addresses whenever the line size divides 2^64 or the transfer does not cross the top of the address space.
- RoCCProps.ReadResponseAdvances: stated for a response that carries exactly the bytes requested. For a response of any other length only the invariant is stated (`RoCC.StoreReadData`), because the source trusts memory to answer with the requested size.
- Words.UnpackPack: reading back ignores a short tail; the payload is always a whole number of output widths.

## Findings

| source | as written | input that shows it | evidently intended | confidence | as-written member | corrected member |
|---|---|---|---|---|---|---|
| utils/sst-elements/newrocc.h:272-273 | `arrayBusy.resize(arrayID + 1, false)` with a `uint32_t` array ID, then `arrayBusy[arrayID] = true` | a compute command (`func7` 3) whose `rs2` has low 32 bits 0xFFFFFFFF: `arrayID + 1` wraps to 0, the table is emptied and the store writes out of range | the table grows to hold entry `arrayID` | not executed | RoCC.GrowTableAsWrittenWraps | RoCC.GrowTable |
| utils/sst-elements/newrocc.h:309-334 | each response's elements are indexed `(readOffset + i) / inputOperandSize` from the response's own start | 4-byte elements, 64-byte lines, 8 bytes loaded from address 62: the responses carry 2 and 6 bytes, and the second stores transfer bytes 2 to 6 as element 0 and 6 to 8 as element 1 | element `k` receives transfer bytes `[4k, 4k + 4)` | not executed | RoCCProtocol.SplitElementAsWritten | RoCCProtocol.TransferItems |

=== FILE: basics.dfy ===
/** Small general-purpose definitions shared by every module. */
module Basics {
  /** A value or nothing. */
  datatype Option<+T> = None | Some(value: T)

  function Min(a: int, b: int): int
  {
    if a <= b then a else b
  }
}

=== FILE: chunking.dfy ===
/** How a transfer of `total` bytes starting at address `base` is cut into
    memory requests: the first request runs to the end of the cache line
    that holds `base` or to the end of the transfer, whichever comes first,
    every later one takes a whole line, and none runs past the end of the
    transfer. Reads and writes use the same rule. */
module Chunking {
  import opened Basics
  import opened Words

  /** One request of a transfer: `size` bytes, `offset` bytes into it. */
  datatype Chunk = Chunk(offset: nat, size: nat)

  /** Size of the request issued when `offset` of `total` bytes are done and
      the next byte lives at `addr`. Only the first request looks at the
      address; later ones are capped at one line. */
  function ChunkSize(line: nat, addr: nat, offset: nat, total: nat): (n: nat)
    requires 0 < line && offset < total
    ensures 0 < n <= line && offset + n <= total
  {
    if offset == 0 then
      Min(line - addr % line, total - offset)
    else
      Min(line, total - offset)
  }

  /** The first request stays in the line that holds `addr`, and every
      request either finishes the transfer, ends the first line exactly, or
      is a whole line. */
  lemma ChunkSizeOnLine(line: nat, addr: nat, offset: nat, total: nat)
    requires 0 < line && offset < total
    ensures var n := ChunkSize(line, addr, offset, total);
      && n == (if offset == 0 then Min(line - addr % line, total) else Min(line, total - offset))
      && (offset == 0 ==> addr % line + n <= line)
      && (offset + n == total || (offset == 0 && (addr + n) % line == 0) || (offset > 0 && n == line))
  {
    if offset == 0 {
      LineEnd(addr, line);
    }
  }

  /** Stepping from `addr` to the end of its line lands on a line boundary. */
  lemma LineEnd(addr: nat, line: nat)
    requires 0 < line
    ensures (addr + (line - addr % line)) % line == 0
  {
    assert addr == line * (addr / line) + addr % line;
    DivModUnique(addr + (line - addr % line), line, addr / line + 1, 0);
  }

  /** Adding whole lines keeps the position within a line. */
  lemma AddLine(x: nat, line: nat)
    requires 0 < line
    ensures (x + line) % line == x % line
  {
    assert x == line * (x / line) + x % line;
    DivModUnique(x + line, line, x / line + 1, x % line);
  }

  /** The requests the chunker issues for the bytes from `offset` to `total`,
      in issue order. */
  function Chunks(line: nat, base: nat, offset: nat, total: nat): seq<Chunk>
    requires 0 < line
    decreases total - offset
  {
    if offset >= total then []
    else
      var n := ChunkSize(line, base + offset, offset, total);
      [Chunk(offset, n)] + Chunks(line, base, offset + n, total)
  }

  function TotalSize(cs: seq<Chunk>): nat
  {
    if |cs| == 0 then 0 else cs[0].size + TotalSize(cs[1..])
  }

  /** `cs` covers `[offset, total)`: the first chunk starts at `offset`,
      each one starts where the previous one ended, and the last ends at
      `total`. */
  predicate Covers(cs: seq<Chunk>, offset: nat, total: nat)
    decreases |cs|
  {
    if |cs| == 0 then offset == total
    else cs[0].offset == offset && offset + cs[0].size <= total && Covers(cs[1..], offset + cs[0].size, total)
  }

  /** Every chunk of `cs` ends by `total`. */
  predicate Within(cs: seq<Chunk>, total: nat)
  {
    forall k :: 0 <= k < |cs| ==> cs[k].offset + cs[k].size <= total
  }

  /** A suffix of chunks that end by `total` ends by `total`. */
  lemma WithinSuffix(cs: seq<Chunk>, total: nat, k: nat)
    requires Within(cs, total) && k <= |cs|
    ensures Within(cs[k..], total)
  {
    forall j | 0 <= j < |cs[k..]| ensures cs[k..][j].offset + cs[k..][j].size <= total {
      assert cs[k..][j] == cs[k + j];
    }
  }

  /** A prefix of chunks that end by `total` ends by `total`. */
  lemma WithinPrefix(cs: seq<Chunk>, total: nat, k: nat)
    requires Within(cs, total) && k <= |cs|
    ensures Within(cs[..k], total)
  {
    forall j | 0 <= j < k ensures cs[..k][j].offset + cs[..k][j].size <= total {
      assert cs[..k][j] == cs[j];
    }
  }

  /** Two sequences of chunks that end by `total` end by `total` together. */
  lemma WithinAppend(a: seq<Chunk>, b: seq<Chunk>, total: nat)
    requires Within(a, total) && Within(b, total)
    ensures Within(a + b, total)
  {
    forall k | 0 <= k < |a + b| ensures (a + b)[k].offset + (a + b)[k].size <= total {
      if k < |a| {
        assert (a + b)[k] == a[k];
      } else {
        assert (a + b)[k] == b[k - |a|];
      }
    }
  }

  /** The chunk plan stays within the transfer. */
  lemma {:induction false} ChunksWithin(line: nat, base: nat, offset: nat, total: nat)
    requires 0 < line
    ensures Within(Chunks(line, base, offset, total), total)
    decreases total - offset
  {
    var cs := Chunks(line, base, offset, total);
    if offset < total {
      var n := ChunkSize(line, base + offset, offset, total);
      var rest := Chunks(line, base, offset + n, total);
      assert cs == [Chunk(offset, n)] + rest;
      ChunksWithin(line, base, offset + n, total);
      forall k | 1 <= k < |cs| ensures cs[k].offset + cs[k].size <= total {
        assert cs[k] == rest[k - 1];
      }
    }
  }

  /** Chunk `k` of `cs` is the request the chunker issues at its offset,
      and the next chunk, present exactly when bytes remain, starts where it
      ends. */
  predicate StepOf(cs: seq<Chunk>, k: nat, line: nat, base: nat, total: nat)
    requires 0 < line && k < |cs|
  {
    && cs[k].offset < total
    && cs[k].size == ChunkSize(line, base + cs[k].offset, cs[k].offset, total)
    && (k + 1 < |cs| <==> cs[k].offset + cs[k].size < total)
    && (k + 1 < |cs| ==> cs[k + 1].offset == cs[k].offset + cs[k].size)
  }

  /** `cs` is the plan from `offset`, stated one chunk at a time. */
  predicate Follows(cs: seq<Chunk>, line: nat, base: nat, offset: nat, total: nat)
    requires 0 < line
  {
    && (|cs| == 0 <==> offset >= total)
    && (|cs| > 0 ==> cs[0].offset == offset)
    && forall k {:trigger StepOf(cs, k, line, base, total)} :: 0 <= k < |cs| ==> StepOf(cs, k, line, base, total)
  }

  /** The chunk plan is the sequence the chunker's steps describe. */
  lemma {:induction false} ChunksFollow(line: nat, base: nat, offset: nat, total: nat)
    requires 0 < line
    ensures Follows(Chunks(line, base, offset, total), line, base, offset, total)
    decreases total - offset
  {
    var cs := Chunks(line, base, offset, total);
    if offset < total {
      var n := ChunkSize(line, base + offset, offset, total);
      var rest := Chunks(line, base, offset + n, total);
      assert cs == [Chunk(offset, n)] + rest;
      ChunksFollow(line, base, offset + n, total);
      forall k | 0 <= k < |cs| ensures StepOf(cs, k, line, base, total) {
        if k > 0 {
          assert cs[k] == rest[k - 1];
          assert StepOf(rest, k - 1, line, base, total);
          if k + 1 < |cs| {
            assert cs[k + 1] == rest[k];
          }
        }
      }
    }
  }

  /** No chunk crosses a line boundary and every chunk after the first
      starts on one. */
  predicate OnLines(cs: seq<Chunk>, line: nat, base: nat)
    requires 0 < line
  {
    && (forall k :: 0 <= k < |cs| ==> (base + cs[k].offset) % line + cs[k].size <= line)
    && (forall k :: 1 <= k < |cs| ==> (base + cs[k].offset) % line == 0)
  }

  /** Every chunk but the last is a whole line, except possibly the first
      one when `firstMayBeShort` holds. */
  predicate FullLines(cs: seq<Chunk>, line: nat, firstMayBeShort: bool)
  {
    forall k :: 0 <= k < |cs| - 1 ==> (k > 0 || !firstMayBeShort) ==> cs[k].size == line
  }

  /** Chunks that cover `[offset, total)` end by `total` and their sizes
      add up to the bytes covered. */
  lemma {:induction false} CoversWithin(cs: seq<Chunk>, offset: nat, total: nat)
    requires Covers(cs, offset, total)
    ensures Within(cs, total) && offset <= total && TotalSize(cs) == total - offset
    decreases |cs|
  {
    if |cs| > 0 {
      CoversWithin(cs[1..], offset + cs[0].size, total);
      forall k | 1 <= k < |cs| ensures cs[k].offset + cs[k].size <= total {
        assert cs[k] == cs[1..][k - 1];
      }
    }
  }

  lemma {:induction false} ChunksCover(line: nat, base: nat, offset: nat, total: nat)
    requires 0 < line && offset <= total
    ensures Covers(Chunks(line, base, offset, total), offset, total)
    decreases total - offset
  {
    var cs := Chunks(line, base, offset, total);
    if offset < total {
      var n := ChunkSize(line, base + offset, offset, total);
      assert cs == [Chunk(offset, n)] + Chunks(line, base, offset + n, total);
      assert cs[1..] == Chunks(line, base, offset + n, total);
      ChunksCover(line, base, offset + n, total);
    }
  }

  /** The chunk plan covers the bytes left with requests of one to `line`
      bytes, and their sizes add up to the bytes left. */
  lemma ChunksTile(line: nat, base: nat, offset: nat, total: nat)
    requires 0 < line && offset <= total
    ensures var cs := Chunks(line, base, offset, total);
      && Covers(cs, offset, total)
      && Within(cs, total)
      && TotalSize(cs) == total - offset
      && (|cs| == 0 <==> offset == total)
      && forall k :: 0 <= k < |cs| ==> 0 < cs[k].size <= line
  {
    var cs := Chunks(line, base, offset, total);
    ChunksCover(line, base, offset, total);
    CoversWithin(cs, offset, total);
    ChunksFollow(line, base, offset, total);
    forall k | 0 <= k < |cs| ensures 0 < cs[k].size <= line {
      assert StepOf(cs, k, line, base, total);
    }
  }

  /** Started at offset 0, no chunk crosses a line boundary, every chunk
      after the first starts on one, every chunk strictly between the first
      and the last is exactly one line, and the first ends at or before the
      end of the line that holds `base`, exactly at it whenever another
      chunk follows. */
  lemma ChunksStayInLines(line: nat, base: nat, total: nat)
    requires 0 < line
    ensures OnLines(Chunks(line, base, 0, total), line, base)
    ensures FullLines(Chunks(line, base, 0, total), line, true)
    ensures |Chunks(line, base, 0, total)| > 0 ==> Chunks(line, base, 0, total)[0].size <= line - base % line
    ensures |Chunks(line, base, 0, total)| > 1 ==> (base + Chunks(line, base, 0, total)[0].size) % line == 0
  {
    ChunksFollow(line, base, 0, total);
    FollowsOnLines(Chunks(line, base, 0, total), line, base, total);
    ChunksFullLines(line, base, 0, total);
    if 0 < total {
      ChunkSizeOnLine(line, base, 0, total);
    }
    var cs := Chunks(line, base, 0, total);
    if |cs| > 1 {
      ChunksTile(line, base, 0, total);
      FollowsLineStart(cs, line, base, total, 1);
    }
  }

  /** Every chunk after the first of a plan from offset 0 starts on a line
      boundary: the first ends its line and each later one is a whole line. */
  lemma {:induction false} FollowsLineStart(cs: seq<Chunk>, line: nat, base: nat, total: nat, k: nat)
    requires 0 < line && Follows(cs, line, base, 0, total) && 1 <= k < |cs|
    ensures (base + cs[k].offset) % line == 0
    decreases k
  {
    var j := k - 1;
    assert StepOf(cs, j, line, base, total);
    ChunkSizeOnLine(line, base + cs[j].offset, cs[j].offset, total);
    if j > 0 {
      assert StepOf(cs, j - 1, line, base, total);
      FollowsLineStart(cs, line, base, total, j);
      AddLine(base + cs[j].offset, line);
    }
  }

  /** A plan from offset 0 keeps every chunk within one line. */
  lemma FollowsOnLines(cs: seq<Chunk>, line: nat, base: nat, total: nat)
    requires 0 < line && Follows(cs, line, base, 0, total)
    ensures OnLines(cs, line, base)
  {
    forall k | 0 <= k < |cs| ensures (base + cs[k].offset) % line + cs[k].size <= line {
      assert StepOf(cs, k, line, base, total);
      ChunkSizeOnLine(line, base + cs[k].offset, cs[k].offset, total);
      if k > 0 {
        FollowsLineStart(cs, line, base, total, k);
      }
    }
    forall k | 1 <= k < |cs| ensures (base + cs[k].offset) % line == 0 {
      FollowsLineStart(cs, line, base, total, k);
    }
  }

  lemma {:induction false} ChunksFullLines(line: nat, base: nat, offset: nat, total: nat)
    requires 0 < line
    ensures FullLines(Chunks(line, base, offset, total), line, offset == 0)
    decreases total - offset
  {
    var cs := Chunks(line, base, offset, total);
    if offset < total {
      var n := ChunkSize(line, base + offset, offset, total);
      var rest := Chunks(line, base, offset + n, total);
      assert cs == [Chunk(offset, n)] + rest;
      ChunkSizeOnLine(line, base + offset, offset, total);
      if offset + n < total {
        ChunksFullLines(line, base, offset + n, total);
        forall k | 1 <= k < |cs| - 1
          ensures cs[k].size == line
        {
          assert cs[k] == rest[k - 1];
        }
      } else {
        assert rest == [];
      }
    }
  }

  /** The example of an 8-byte-misaligned 32-byte transfer over 16-byte
      lines: 8, 16 and 8 bytes. */
  lemma UnalignedExample()
    ensures Chunks(16, 0x2008, 0, 32) == [Chunk(0, 8), Chunk(8, 16), Chunk(24, 8)]
  {
    assert ChunkSize(16, 0x2008, 0, 32) == 8;
    assert ChunkSize(16, 0x2010, 8, 32) == 16;
    assert ChunkSize(16, 0x2020, 24, 32) == 8;
  }

  /** An aligned transfer shorter than a line is one request. */
  lemma ShortAlignedExample()
    ensures Chunks(64, 0x1000, 0, 16) == [Chunk(0, 16)]
  {
    assert ChunkSize(64, 0x1000, 0, 16) == 16;
  }
}

=== FILE: props.dfy ===
/** Properties of single events: how a tick decodes the head command, how
    a memory response moves a transfer on, what an array event does, and
    what completion and `respond` leave behind. */
module RoCCProps {
  import opened Basics
  import opened Words
  import opened Chunking
  import opened RoCCState
  import opened RoCC

  /** An unknown `func7` completes the head command with 1 in the same
      tick and asks nothing of memory or the array. */
  lemma TickUnknownOpcode(c: Config, s: State, out: seq<nat>)
    requires Inv(c, s) && !s.busy && |s.queue| > 0 && |out| >= c.arrayOutputSize
    requires s.queue[0].func7 !in {1, 2, 3, 4, 5}
    ensures Tick(c, s, out) == Outcome(CompleteRoCC(s, 1), [])
  {
  }

  /** A move completes with 0 in the same tick after one synchronous
      output-to-input move between the arrays named by the two operands;
      it never touches memory. */
  lemma TickMoveVector(c: Config, s: State, out: seq<nat>)
    requires Inv(c, s) && !s.busy && |s.queue| > 0 && |out| >= c.arrayOutputSize
    requires s.queue[0].func7 == 5
    ensures Tick(c, s, out) == Outcome(CompleteRoCC(s, 0),
                                       [MoveOutputToInput(s.queue[0].rs1 % U32, s.queue[0].rs2 % U32)])
  {
  }

  /** A compute leaves the command at the head, marks its array busy
      (growing the table to reach it, new entries not busy), leaves every
      other entry alone and starts the computation. */
  lemma TickCompute(c: Config, s: State, out: seq<nat>)
    requires Inv(c, s) && !s.busy && |s.queue| > 0 && |out| >= c.arrayOutputSize
    requires s.queue[0].func7 == 3
    ensures var o := Tick(c, s, out);
      var aid := s.queue[0].rs2 % U32;
      && o.state.busy && o.state.queue == s.queue && o.state.resp == s.resp
      && o.state.op.curOp == Compute && o.state.op.arrayID == aid
      && o.effects == [BeginComputation(aid)]
      && |o.state.arrayBusy| == (if aid < |s.arrayBusy| then |s.arrayBusy| else aid + 1)
      && o.state.arrayBusy[aid]
      && (forall a :: 0 <= a < |s.arrayBusy| && a != aid ==> o.state.arrayBusy[a] == s.arrayBusy[a])
      && (forall a :: |s.arrayBusy| <= a < |o.state.arrayBusy| && a != aid ==> !o.state.arrayBusy[a])
  {
  }

  /** A matrix load reads `arrayOutputSize × arrayInputSize ×
      inputOperandSize` bytes (in 64-bit arithmetic) and a vector load
      `arrayInputSize × inputOperandSize`, from the address in the first
      operand into the array named by the second. Nothing to read completes
      with 0 at once; otherwise exactly one read goes out, for the first
      chunk, and the command stays at the head. */
  lemma TickLoad(c: Config, s: State, out: seq<nat>)
    requires Inv(c, s) && !s.busy && |s.queue| > 0 && |out| >= c.arrayOutputSize
    requires s.queue[0].func7 in {1, 2}
    ensures var o := Tick(c, s, out);
      var cmd := s.queue[0];
      var total := if cmd.func7 == 1 then MatrixBytes(c) else VectorBytes(c);
      && (total == 0 ==> o == Outcome(CompleteRoCC(s, 0), []))
      && (total > 0 ==>
            && o.state == s.(busy := true, op := o.state.op)
            && o.state.op.curOp == (if cmd.func7 == 1 then SetMatrix else LoadVec)
            && o.state.op.arrayID == cmd.rs2 % U32
            && o.state.op.rdBase == cmd.rs1 && o.state.op.readOffset == 0 && o.state.op.readTotal == total
            && o.effects == [Read(cmd.rs1, ChunkSize(c.lineSize, cmd.rs1, 0, total))]
            && Outstanding(c, o.state) == Some(o.effects[0]))
  {
    DivModUnique(s.queue[0].rs1 + 0, U64, 0, s.queue[0].rs1);
  }

  /** The three configured totals are the exact products whenever the
      product fits in 64 bits, which for the two vector totals is always. */
  lemma ByteTotals(c: Config)
    ensures VectorBytes(c) == c.arrayInputSize * c.inputOperandSize
    ensures StoreBytes(c) == c.arrayOutputSize * c.outputOperandSize
    ensures c.arrayOutputSize * c.arrayInputSize * c.inputOperandSize < U64 ==>
              MatrixBytes(c) == c.arrayOutputSize * c.arrayInputSize * c.inputOperandSize
  {
  }

  /** A 4 × 4 array of 4-byte elements over 64-byte lines: the matrix is 64
      bytes, the input vector 16, and a matrix load from the aligned
      address 0x1000 is a single read of the whole line. */
  lemma FourByFourExample(c: Config)
    requires c.arrayInputSize == 4 && c.arrayOutputSize == 4 && c.inputOperandSize == 4 && c.lineSize == 64
    ensures MatrixBytes(c) == 64 && VectorBytes(c) == 16
    ensures Chunks(c.lineSize, 0x1000, 0, MatrixBytes(c)) == [Chunk(0, 64)]
  {
    assert ChunkSize(64, 0x1000, 0, 64) == 64;
  }

  /** A store packs the first `arrayOutputSize` output values at
      `outputOperandSize` bytes each into a payload of exactly the total,
      completes with 0 at once when that is empty, and otherwise sends the
      first chunk of the payload to the address in the first operand. */
  lemma TickStore(c: Config, s: State, out: seq<nat>)
    requires Inv(c, s) && !s.busy && |s.queue| > 0 && |out| >= c.arrayOutputSize
    requires s.queue[0].func7 == 4
    ensures var o := Tick(c, s, out);
      var cmd := s.queue[0];
      var total := StoreBytes(c);
      var payload := Pack(out[..c.arrayOutputSize], c.outputOperandSize);
      && (total == 0 ==> o == Outcome(CompleteRoCC(s, 0), []))
      && (total > 0 ==>
            var n := ChunkSize(c.lineSize, cmd.rs1, 0, total);
            && o.state == s.(busy := true, op := o.state.op)
            && o.state.op.curOp == StoreVec && o.state.op.arrayID == cmd.rs2 % U32
            && o.state.op.wrBase == cmd.rs1 && o.state.op.writeOffset == 0 && o.state.op.writeTotal == total
            && o.state.op.outputPayload == payload && |payload| == total
            && o.effects == [Write(cmd.rs1, n, payload[..n])]
            && Outstanding(c, o.state) == Some(o.effects[0]))
  {
    DivModUnique(s.queue[0].rs1 + 0, U64, 0, s.queue[0].rs1);
  }

  /** A successful read response carrying exactly the bytes of the
      outstanding request stores one element per operand width into the
      matrix (for a matrix load) or the input vector (for a vector load) of
      the command's array, advances the offset by the response length,
      and then either sends exactly one read, for the next chunk, or
      completes with 0 when the total is reached. */
  lemma ReadResponseAdvances(c: Config, s: State, data: seq<byte>)
    requires Inv(c, s) && s.busy && s.op.curOp in {SetMatrix, LoadVec}
    requires |data| == Outstanding(c, s).value.size
    ensures var o := HandleReadResp(c, s, data, false);
      var next := s.op.readOffset + |data|;
      var items := ElementItems(if s.op.curOp == SetMatrix then Matrix else Vector,
                                s.op.arrayID, s.op.readOffset, data, c.inputOperandSize);
      && next <= s.op.readTotal
      && (next < s.op.readTotal ==>
            && o.state == s.(op := s.op.(readOffset := next))
            && o.effects == items + [ReadRequest(c, o.state.op)]
            && Outstanding(c, o.state) == Some(ReadRequest(c, o.state.op)))
      && (next == s.op.readTotal ==> o == Outcome(CompleteRoCC(s, 0), items))
  {
    ReadBytesNeedWidth(c);
    var off := s.op.readOffset;
    assert off + |data| <= s.op.readTotal < U64;
    DivModUnique(off + |data|, U64, 0, off + |data|);
  }

  /** A successful write response while a store is pending advances the
      write offset by exactly the size of the write that was outstanding,
      then sends exactly one write, the payload slice at the new offset,
      or completes with 0 when the total is reached. */
  lemma WriteResponseAdvances(c: Config, s: State)
    requires Inv(c, s) && s.busy && s.op.curOp == StoreVec
    ensures var o := HandleWriteResp(c, s, false);
      var sent := Outstanding(c, s).value;
      var next := s.op.writeOffset + sent.size;
      && sent == WriteRequest(c, s.op)
      && next <= s.op.writeTotal
      && (next < s.op.writeTotal ==>
            && o.state == s.(op := s.op.(writeOffset := next))
            && o.effects == [WriteRequest(c, o.state.op)]
            && Outstanding(c, o.state) == Some(o.effects[0]))
      && (next == s.op.writeTotal ==> o == Outcome(CompleteRoCC(s, 0), []))
  {
    var off := s.op.writeOffset;
    var sent := WriteRequest(c, s.op);
    assert off + sent.size <= s.op.writeTotal < U64;
    DivModUnique(off + sent.size, U64, 0, off + sent.size);
  }

  /** An array event clears the busy flag of its array when the table
      reaches it and leaves the table alone otherwise; a pending compute
      completes with 0 whatever array the event names (there is no check
      that it is the array being waited on), and any other state keeps its
      command and pending operation. */
  lemma ArrayEventEffect(c: Config, s: State, aid: u32)
    requires Inv(c, s)
    ensures var o := HandleArrayEvent(c, s, aid);
      var table := o.state.arrayBusy;
      && |table| == |s.arrayBusy|
      && (aid < |s.arrayBusy| ==> !table[aid])
      && (forall a :: 0 <= a < |table| && a != aid ==> table[a] == s.arrayBusy[a])
      && (s.op.curOp == Compute ==> o.state == CompleteRoCC(s.(arrayBusy := table), 0))
      && (s.op.curOp != Compute ==> o.state == s.(arrayBusy := table))
  {
  }

  /** An event for another array than the one a compute is waiting on
      still completes that compute with 0. */
  lemma StaleArrayEventEndsCompute(c: Config, s: State, aid: u32)
    requires Inv(c, s) && s.op.curOp == Compute && aid != s.op.arrayID
    ensures var o := HandleArrayEvent(c, s, aid);
      && !o.state.busy && o.state.queue == s.queue[1..]
      && o.state.resp == Some(Response(s.queue[0].rd, 0))
      && s.arrayBusy[s.op.arrayID] && o.state.arrayBusy[s.op.arrayID]
  {
  }

  /** Completing the current command keeps the invariant, leaves the
      interface idle with no request outstanding and one command fewer,
      and the host's next `respond` returns the head's destination
      register with the value exactly once. */
  lemma CompletionRetiresHead(c: Config, s: State, value: u64)
    requires Inv(c, s) && s.busy
    ensures var t := CompleteRoCC(s, value);
      && Inv(c, t) && !IsBusy(t) && Outstanding(c, t) == None
      && RoCCQueueSize(t) == RoCCQueueSize(s) - 1
      && Respond(t).1 == Some(Response(s.queue[0].rd, value))
      && Respond(Respond(t).0).1 == None
  {
  }

  /** `isBusy` in a reachable state: the interface is busy exactly while an
      operation is pending, and then the command it serves is still at the
      head of the queue and is a transfer or a compute; moves and unknown
      opcodes never leave it busy. */
  lemma BusyMeansServing(c: Config, s: State)
    requires Inv(c, s)
    ensures IsBusy(s) <==> s.op.curOp != NoOp
    ensures IsBusy(s) ==> RoCCQueueSize(s) > 0 && 1 <= s.queue[0].func7 <= 4
  {
  }

  /** A push keeps the invariant and leaves the current command and any
      outstanding request as they were. */
  lemma PushKeepsInv(c: Config, s: State, cmd: Command)
    requires Inv(c, s)
    ensures Inv(c, Push(s, cmd))
    ensures Outstanding(c, Push(s, cmd)) == Outstanding(c, s)
    ensures |s.queue| > 0 ==> Push(s, cmd).queue[0] == s.queue[0]
  {
  }

  /** A push made only when `RoCCFull` is false keeps the queue within
      capacity; a push made regardless goes beyond it, since `push` itself
      never refuses. */
  lemma PushCapacity(c: Config, s: State, cmd: Command)
    requires |s.queue| <= c.maxInstructions
    ensures !RoCCFull(c, s) ==> RoCCQueueSize(Push(s, cmd)) <= c.maxInstructions
    ensures RoCCFull(c, s) ==> RoCCQueueSize(Push(s, cmd)) == c.maxInstructions + 1
  {
  }
}

=== FILE: protocol.dfy ===
/** Whole transfers. A memory that answers every outstanding request
    successfully, a read with exactly the bytes asked for, drives a load or
    a store from its first request to completion; these lemmas say which
    requests go out, which element stores reach the array and which bytes
    reach memory over the whole command. */
module RoCCProtocol {
  import opened Basics
  import opened Words
  import opened Chunking
  import opened RoCCState
  import opened RoCC
  import opened RoCCProps
  import opened RoCCRuns

  /** The element stores among `effs`, in order. */
  function Items(effs: seq<Effect>): seq<Effect>
  {
    if |effs| == 0 then []
    else (if effs[0].SetItem? then [effs[0]] else []) + Items(effs[1..])
  }

  /** An effect is among `Items(effs)` exactly when it is an element store of `effs`. */
  lemma {:induction false} ItemsFilter(effs: seq<Effect>)
    ensures forall e :: e in Items(effs) ==> e in effs && e.SetItem?
    ensures forall e :: e in effs && e.SetItem? ==> e in Items(effs)
  {
    if |effs| > 0 {
      ItemsFilter(effs[1..]);
      assert effs == [effs[0]] + effs[1..];
    }
  }

  lemma {:induction false} ItemsAppend(a: seq<Effect>, b: seq<Effect>)
    ensures Items(a + b) == Items(a) + Items(b)
  {
    if |a| > 0 {
      assert (a + b)[1..] == a[1..] + b;
      ItemsAppend(a[1..], b);
    } else {
      assert a + b == b;
    }
  }

  lemma {:induction false} ItemsOfItems(target: Target, aid: u32, before: nat, bytes: seq<byte>, width: nat)
    requires 0 < width
    ensures Items(ElementItems(target, aid, before, bytes, width)) == ElementItems(target, aid, before, bytes, width)
    decreases |bytes|
  {
    if |bytes| > 0 {
      var n := Min(width, |bytes|);
      var items := ElementItems(target, aid, before, bytes, width);
      ItemsOfItems(target, aid, before + width, bytes[n..], width);
      assert items[1..] == ElementItems(target, aid, before + width, bytes[n..], width);
    }
  }

  /** A response makes one element store per started `width` bytes. */
  lemma {:induction false} ItemsCount(target: Target, aid: u32, before: nat, bytes: seq<byte>, width: nat)
    requires 0 < width
    ensures |ElementItems(target, aid, before, bytes, width)| == (|bytes| + width - 1) / width
    decreases |bytes|
  {
    var items := ElementItems(target, aid, before, bytes, width);
    if |bytes| <= width {
      CeilSmall(|bytes|, width);
      if |bytes| > 0 {
        assert |items| == 1 + |ElementItems(target, aid, before + width, bytes[|bytes|..], width)|;
        assert bytes[|bytes|..] == [];
      }
    } else {
      var rest := bytes[width..];
      assert |items| == 1 + |ElementItems(target, aid, before + width, rest, width)|;
      ItemsCount(target, aid, before + width, rest, width);
      DivStep(|rest| + width - 1, width);
    }
  }

  /** The `k`-th element store of a response, the one for the bytes from
      `i`, goes to index `before / width + k` and carries bytes
      `[i, i + width)` of the response, fewer at the end when the length is
      not a multiple of the width. */
  lemma {:induction false} ItemAt(target: Target, aid: u32, before: nat, bytes: seq<byte>, width: nat, k: nat, i: nat)
    requires 0 < width && k < |ElementItems(target, aid, before, bytes, width)| && i == k * width
    ensures i < |bytes|
    ensures ElementItems(target, aid, before, bytes, width)[k]
         == SetItem(target, aid, before / width + k, bytes[i .. Min(i + width, |bytes|)])
    decreases k
  {
    var items := ElementItems(target, aid, before, bytes, width);
    var n := Min(width, |bytes|);
    var rest := bytes[n..];
    var tail := ElementItems(target, aid, before + width, rest, width);
    assert items == [SetItem(target, aid, before / width, bytes[..n])] + tail;
    if k > 0 {
      assert n == width;
      var j := i - width;
      MulSucc(k - 1, width);
      assert j == (k - 1) * width;
      ItemAt(target, aid, before + width, rest, width, k - 1, j);
      assert items[k] == tail[k - 1];
      DivStep(before, width);
      var e := Min(j + width, |rest|);
      SuffixSlice(bytes, width, j, e);
      assert rest[j..e] == bytes[i .. Min(i + width, |bytes|)];
    } else {
      assert i == 0;
      assert bytes[i .. Min(i + width, |bytes|)] == bytes[..n];
    }
  }

  /** Bytes `[k * width, (k + 1) * width)` of `bytes`, fewer at the end. */
  function ElementBytes(bytes: seq<byte>, width: nat, k: nat): seq<byte>
    requires k * width < |bytes|
  {
    bytes[k * width .. Min(k * width + width, |bytes|)]
  }

  /** One response's element stores in closed form. */
  lemma ItemsLayout(target: Target, aid: u32, before: nat, bytes: seq<byte>, width: nat)
    requires 0 < width
    ensures var items := ElementItems(target, aid, before, bytes, width);
      && |items| == (|bytes| + width - 1) / width
      && forall k :: 0 <= k < |items| ==>
           k * width < |bytes| && items[k] == SetItem(target, aid, before / width + k, ElementBytes(bytes, width, k))
  {
    ItemsCount(target, aid, before, bytes, width);
    forall k | 0 <= k < |ElementItems(target, aid, before, bytes, width)|
      ensures k * width < |bytes|
      ensures ElementItems(target, aid, before, bytes, width)[k]
           == SetItem(target, aid, before / width + k, ElementBytes(bytes, width, k))
    {
      ItemAt(target, aid, before, bytes, width, k, k * width);
    }
  }

  /** Splitting a response after a whole number of elements splits its
      element stores the same way. */
  lemma {:induction false} ItemsSplit(target: Target, aid: u32, before: nat, a: seq<byte>, b: seq<byte>, width: nat)
    requires 0 < width && |a| % width == 0
    ensures ElementItems(target, aid, before, a + b, width)
         == ElementItems(target, aid, before, a, width) + ElementItems(target, aid, before + |a|, b, width)
    decreases |a|
  {
    if |a| == 0 {
      assert a + b == b;
    } else {
      MultipleAtLeast(|a|, width);
      MultipleStep(|a|, width);
      assert (a + b)[..width] == a[..width];
      assert (a + b)[width..] == a[width..] + b;
      ItemsSplit(target, aid, before + width, a[width..], b, width);
    }
  }

  /** The read of one chunk: its size at `base` plus the chunk's offset,
      the sum wrapping at 64 bits. */
  function ChunkRead(base: u64, ch: Chunk): Effect
  {
    Read((base + ch.offset) % U64, ch.size)
  }

  /** The reads the chunk plan `cs` issues for a transfer from `base`. */
  function ReadRequests(base: u64, cs: seq<Chunk>): (r: seq<Effect>)
    ensures |r| == |cs|
  {
    if |cs| == 0 then [] else [ChunkRead(base, cs[0])] + ReadRequests(base, cs[1..])
  }

  /** Read `k` of a plan asks for chunk `k`'s bytes at its address, the
      sum wrapping at 64 bits. */
  lemma {:induction false} ReadRequestsLayout(base: u64, cs: seq<Chunk>)
    ensures forall k :: 0 <= k < |cs| ==> ReadRequests(base, cs)[k] == Read((base + cs[k].offset) % U64, cs[k].size)
  {
    if |cs| > 0 {
      ReadRequestsLayout(base, cs[1..]);
      var r := ReadRequests(base, cs);
      assert r[1..] == ReadRequests(base, cs[1..]);
      forall k | 1 <= k < |cs| ensures r[k] == Read((base + cs[k].offset) % U64, cs[k].size) {
        assert r[k] == r[1..][k - 1] && cs[k] == cs[1..][k - 1];
      }
    }
  }

  /** The element stores the handler makes when each chunk of the plan
      `cs` comes back from `mem`, chunk by chunk. */
  function ChunkItems(target: Target, aid: u32, mem: seq<byte>, cs: seq<Chunk>, width: nat): seq<Effect>
    requires 0 < width && Within(cs, |mem|)
  {
    if |cs| == 0 then []
    else ElementItems(target, aid, cs[0].offset, mem[cs[0].offset .. cs[0].offset + cs[0].size], width)
           + ChunkItems(target, aid, mem, cs[1..], width)
  }

  /** Every chunk of the plan holds a whole number of elements. */
  predicate WholeElements(cs: seq<Chunk>, width: nat)
    requires 0 < width
  {
    forall k :: 0 <= k < |cs| ==> cs[k].size % width == 0
  }

  /** When the chunks cover the bytes from `offset` and each holds whole
      elements, the per-chunk stores are the stores of one response
      carrying all those bytes. */
  lemma {:induction false} ChunkItemsWhole(target: Target, aid: u32, mem: seq<byte>, cs: seq<Chunk>,
                                           offset: nat, width: nat)
    requires 0 < width && Covers(cs, offset, |mem|) && WholeElements(cs, width)
    ensures Within(cs, |mem|) && offset <= |mem|
    ensures ChunkItems(target, aid, mem, cs, width) == ElementItems(target, aid, offset, mem[offset..], width)
    decreases |cs|
  {
    CoversWithin(cs, offset, |mem|);
    if |cs| > 0 {
      var n := cs[0].size;
      var rest := cs[1..];
      assert WholeElements(rest, width) by {
        forall k | 0 <= k < |rest| ensures rest[k].size % width == 0 {
          assert rest[k] == cs[k + 1];
        }
      }
      ChunkItemsWhole(target, aid, mem, rest, offset + n, width);
      ChunkItemsWholeStep(target, aid, mem, cs, offset, width);
    } else {
      assert mem[offset..] == [];
    }
  }

  /** The inductive step of `ChunkItemsWhole`: a first chunk of whole
      elements followed by the rest. */
  lemma ChunkItemsWholeStep(target: Target, aid: u32, mem: seq<byte>, cs: seq<Chunk>, offset: nat, width: nat)
    requires 0 < width && Within(cs, |mem|) && |cs| > 0
    requires cs[0].offset == offset && cs[0].size % width == 0
    requires Within(cs[1..], |mem|)
    requires ChunkItems(target, aid, mem, cs[1..], width)
          == ElementItems(target, aid, offset + cs[0].size, mem[offset + cs[0].size ..], width)
    ensures ChunkItems(target, aid, mem, cs, width) == ElementItems(target, aid, offset, mem[offset..], width)
  {
    var n := cs[0].size;
    var first, after := mem[offset .. offset + n], mem[offset + n ..];
    SplitAt(mem, offset, offset + n);
    assert mem[offset..] == first + after;
    ItemsSplit(target, aid, offset, first, after, width);
    ChunkItemsHead(target, aid, mem, cs, width);
  }

  /** Chunks that start at an element boundary, on lines that are whole
      elements, of a transfer that is whole elements, hold whole
      elements. */
  lemma {:induction false} AlignedChunksWhole(line: nat, base: nat, offset: nat, total: nat, width: nat)
    requires 0 < line && 0 < width && line % width == 0 && total % width == 0 && offset <= total
    requires offset % width == 0 && (offset == 0 ==> base % width == 0)
    ensures WholeElements(Chunks(line, base, offset, total), width)
    decreases total - offset
  {
    var cs := Chunks(line, base, offset, total);
    if offset < total {
      var n := ChunkSize(line, base + offset, offset, total);
      var rest := Chunks(line, base, offset + n, total);
      assert cs == [Chunk(offset, n)] + rest;
      ChunkSizeOnLine(line, base + offset, offset, total);
      MultipleDiff(total, offset, width);
      if offset == 0 {
        LineStartWhole(base, line, width);
        MultipleDiff(line, base % line, width);
      }
      assert n % width == 0;
      MultipleSum(offset, n, width);
      AlignedChunksWhole(line, base, offset + n, total, width);
      forall k | 1 <= k < |cs| ensures cs[k].size % width == 0 {
        assert cs[k] == rest[k - 1];
      }
    }
  }

  /** Within-line offsets of an element-aligned address are element
      aligned when lines are whole elements. */
  lemma LineStartWhole(base: nat, line: nat, width: nat)
    requires 0 < line && 0 < width && line % width == 0 && base % width == 0
    ensures (base % line) % width == 0
  {
    var q := base / line;
    MultipleMul(line, q, width);
    assert base == line * q + base % line;
    MultipleDiff(base, line * q, width);
  }

  /** The element stores a load of the bytes `mem` is meant to make:
      element `k` of the transfer goes to index `k` and carries bytes
      `[k*w, k*w + w)` of the transfer, fewer for a short last element.
      A plan of whole-element chunks makes exactly these (`LoadCommand`). */
  function TransferItems(target: Target, aid: u32, mem: seq<byte>, width: nat): (r: seq<Effect>)
    requires 0 < width
    ensures |r| == (|mem| + width - 1) / width
    ensures forall k :: 0 <= k < |r| ==>
      k * width < |mem| && r[k] == SetItem(target, aid, k, ElementBytes(mem, width, k))
  {
    ItemsLayout(target, aid, 0, mem, width);
    ElementItems(target, aid, 0, mem, width)
  }

  /** A load whose first chunk splits an element, as the source handles it:
      8 bytes of 4-byte elements from 2 bytes before the end of a 64-byte
      line go out as chunks of 2 and 6 bytes. The second response's elements
      are indexed from its offset 2, so element 0 is stored again with
      transfer bytes 2 to 6 and element 1 gets bytes 6 to 8, where the
      transfer's elements are bytes 0 to 4 and 4 to 8. */
  lemma SplitElementAsWritten(target: Target, aid: u32, mem: seq<byte>)
    requires |mem| == 8
    ensures Chunks(64, 62, 0, 8) == [Chunk(0, 2), Chunk(2, 6)] && Within([Chunk(0, 2), Chunk(2, 6)], 8)
    ensures ChunkItems(target, aid, mem, [Chunk(0, 2), Chunk(2, 6)], 4)
         == [SetItem(target, aid, 0, mem[0..2]), SetItem(target, aid, 0, mem[2..6]), SetItem(target, aid, 1, mem[6..8])]
    ensures TransferItems(target, aid, mem, 4) == [SetItem(target, aid, 0, mem[0..4]), SetItem(target, aid, 1, mem[4..8])]
  {
    assert ChunkSize(64, 62, 0, 8) == 2;
    assert ChunkSize(64, 64, 2, 8) == 6;
    var cs := [Chunk(0, 2), Chunk(2, 6)];
    assert cs[1..] == [Chunk(2, 6)] && cs[1..][1..] == [];
    var first, second := mem[0..2], mem[2..8];
    assert first[..2] == first && first[2..] == [];
    assert second[..4] == mem[2..6] && second[4..] == mem[6..8];
    assert mem[6..8][..2] == mem[6..8] && mem[6..8][2..] == [];
    assert ElementItems(target, aid, 0, first, 4) == [SetItem(target, aid, 0, mem[0..2])];
    assert ElementItems(target, aid, 6, mem[6..8], 4) == [SetItem(target, aid, 1, mem[6..8])];
    assert ElementItems(target, aid, 2, second, 4)
        == [SetItem(target, aid, 0, mem[2..6]), SetItem(target, aid, 1, mem[6..8])];
    assert ChunkItems(target, aid, mem, cs[1..], 4) == ElementItems(target, aid, 2, second, 4);
    var t := TransferItems(target, aid, mem, 4);
    assert |t| == 2;
    assert t[0] == SetItem(target, aid, 0, ElementBytes(mem, 4, 0));
    assert t[1] == SetItem(target, aid, 1, ElementBytes(mem, 4, 1));
  }

  /** The request a pending read sends is the next chunk of its plan. */
  lemma ReadRequestIsPlanned(c: Config, op: OpState)
    requires op.readOffset < op.readTotal
    ensures ReadRequest(c, op) == Read((op.rdBase + op.readOffset) % U64,
                                       ChunkSize(c.lineSize, op.rdBase + op.readOffset, op.readOffset, op.readTotal))
  {
    if op.readOffset == 0 {
      DivModUnique(op.rdBase + 0, U64, 0, op.rdBase);
    }
  }

  lemma ReadRequestsHead(base: u64, cs: seq<Chunk>)
    requires |cs| > 0
    ensures ReadRequests(base, cs) == [ChunkRead(base, cs[0])] + ReadRequests(base, cs[1..])
  {
  }

  /** The element stores of a plan are those of its first chunk followed by
      those of the rest. */
  lemma ChunkItemsHead(target: Target, aid: u32, mem: seq<byte>, cs: seq<Chunk>, width: nat)
    requires 0 < width && Within(cs, |mem|) && |cs| > 0
    ensures Within(cs[1..], |mem|)
    ensures ChunkItems(target, aid, mem, cs, width)
         == ElementItems(target, aid, cs[0].offset, mem[cs[0].offset .. cs[0].offset + cs[0].size], width)
            + ChunkItems(target, aid, mem, cs[1..], width)
  {
    WithinSuffix(cs, |mem|, 1);
  }

  /** Where a pending load's bytes go. */
  function LoadTarget(op: OpState): Target
  {
    if op.curOp == SetMatrix then Matrix else Vector
  }

  /** The load `s` can be served from `mem`: it holds exactly the bytes to
      read. */
  predicate LoadPending(c: Config, s: State, mem: seq<byte>)
  {
    Inv(c, s) && s.busy && s.op.curOp in {SetMatrix, LoadVec} && |mem| == s.op.readTotal
  }

  /** The bytes a memory holding `mem` returns for the outstanding read. */
  function Answer(c: Config, st: State, mem: seq<byte>): (data: seq<byte>)
    requires st.op.readOffset < st.op.readTotal == |mem|
    ensures |data| == ReadRequest(c, st.op).size
  {
    mem[st.op.readOffset .. st.op.readOffset + ReadRequest(c, st.op).size]
  }

  /** The reads of `cs` followed by one more chunk's read. */
  lemma {:induction false} ReadRequestsSnoc(base: u64, cs: seq<Chunk>, c: Chunk)
    ensures ReadRequests(base, cs + [c]) == ReadRequests(base, cs) + [ChunkRead(base, c)]
  {
    if |cs| == 0 {
      assert cs + [c] == [c];
    } else {
      assert (cs + [c])[1..] == cs[1..] + [c];
      ReadRequestsSnoc(base, cs[1..], c);
    }
  }

  /** The element stores of two plans one after the other. */
  lemma {:induction false} ChunkItemsAppend(target: Target, aid: u32, mem: seq<byte>, a: seq<Chunk>, b: seq<Chunk>, width: nat)
    requires 0 < width && Within(a, |mem|) && Within(b, |mem|)
    ensures Within(a + b, |mem|)
    ensures ChunkItems(target, aid, mem, a + b, width)
         == ChunkItems(target, aid, mem, a, width) + ChunkItems(target, aid, mem, b, width)
    decreases |a|
  {
    WithinAppend(a, b, |mem|);
    if |a| > 0 {
      WithinSuffix(a, |mem|, 1);
      ChunkItemsAppend(target, aid, mem, a[1..], b, width);
      ChunkItemsAppendStep(target, aid, mem, a, b, width);
    } else {
      assert a + b == b;
    }
  }

  /** The inductive step of `ChunkItemsAppend`. */
  lemma ChunkItemsAppendStep(target: Target, aid: u32, mem: seq<byte>, a: seq<Chunk>, b: seq<Chunk>, width: nat)
    requires 0 < width && |a| > 0 && Within(a, |mem|) && Within(b, |mem|) && Within(a + b, |mem|)
    requires Within(a[1..], |mem|) && Within(a[1..] + b, |mem|)
    requires ChunkItems(target, aid, mem, a[1..] + b, width)
          == ChunkItems(target, aid, mem, a[1..], width) + ChunkItems(target, aid, mem, b, width)
    ensures ChunkItems(target, aid, mem, a + b, width)
         == ChunkItems(target, aid, mem, a, width) + ChunkItems(target, aid, mem, b, width)
  {
    TailAppend(a, b);
    ChunkItemsHead(target, aid, mem, a + b, width);
    ChunkItemsHead(target, aid, mem, a, width);
    var first := ElementItems(target, aid, a[0].offset, mem[a[0].offset .. a[0].offset + a[0].size], width);
    AppendAssoc(first, ChunkItems(target, aid, mem, a[1..], width), ChunkItems(target, aid, mem, b, width));
  }

  /** The read the response to chunk `k` of a load plan issues: the one for
      chunk `k + 1`, if there is one. */
  function NextRead(base: u64, plan: seq<Chunk>, k: nat): seq<Effect>
    requires k < |plan|
  {
    if k + 1 < |plan| then [ChunkRead(base, plan[k + 1])] else []
  }

  /** What the interface does on the response to chunk `k` of a load plan:
      the chunk's element stores, then the read for chunk `k + 1` if there
      is one. */
  function ResponseEffects(target: Target, aid: u32, base: u64, mem: seq<byte>, plan: seq<Chunk>, k: nat, width: nat)
    : seq<Effect>
    requires 0 < width && Within(plan, |mem|) && k < |plan|
  {
    ElementItems(target, aid, plan[k].offset, mem[plan[k].offset .. plan[k].offset + plan[k].size], width)
      + NextRead(base, plan, k)
  }

  /** Everything the interface does over the responses to the first `k`
      chunks of a load plan, in order. */
  function LoadEffects(target: Target, aid: u32, base: u64, mem: seq<byte>, plan: seq<Chunk>, k: nat, width: nat)
    : seq<Effect>
    requires 0 < width && Within(plan, |mem|) && k <= |plan|
  {
    if k == 0 then []
    else LoadEffects(target, aid, base, mem, plan, k - 1, width)
           + ResponseEffects(target, aid, base, mem, plan, k - 1, width)
  }

  /** The reads issued by the responses to the first `k` chunks. */
  function NextReads(base: u64, plan: seq<Chunk>, k: nat): seq<Effect>
    requires k <= |plan|
  {
    if k == 0 then [] else NextReads(base, plan, k - 1) + NextRead(base, plan, k - 1)
  }

  /** The responses to the first `k` chunks, while chunks remain, read
      chunks `1` to `k`. */
  lemma {:induction false} NextReadsPrefix(base: u64, plan: seq<Chunk>, k: nat)
    requires k < |plan|
    ensures NextReads(base, plan, k) == ReadRequests(base, plan[1 .. k + 1])
  {
    if k == 0 {
      assert plan[1..1] == [];
    } else {
      NextReadsPrefix(base, plan, k - 1);
      NextReadsStep(base, plan, k);
    }
  }

  lemma NextReadsStep(base: u64, plan: seq<Chunk>, k: nat)
    requires 0 < k < |plan|
    requires NextReads(base, plan, k - 1) == ReadRequests(base, plan[1..k])
    ensures NextReads(base, plan, k) == ReadRequests(base, plan[1 .. k + 1])
  {
    SliceSnoc(plan, 1, k);
    ReadRequestsSnoc(base, plan[1..k], plan[k]);
  }

  /** The responses to all the chunks read every chunk but the first. */
  lemma NextReadsArePlanned(base: u64, plan: seq<Chunk>)
    requires 0 < |plan|
    ensures NextReads(base, plan, |plan|) == ReadRequests(base, plan[1..])
  {
    NextReadsPrefix(base, plan, |plan| - 1);
    assert plan[1 .. |plan|] == plan[1..];
  }

  /** The only read a response issues is the one for the next chunk. */
  lemma ResponseRequests(target: Target, aid: u32, base: u64, mem: seq<byte>, plan: seq<Chunk>, k: nat, width: nat)
    requires 0 < width && Within(plan, |mem|) && k < |plan|
    ensures Requests(ResponseEffects(target, aid, base, mem, plan, k, width)) == NextRead(base, plan, k)
  {
    var data := mem[plan[k].offset .. plan[k].offset + plan[k].size];
    var items := ElementItems(target, aid, plan[k].offset, data, width);
    var more := NextRead(base, plan, k);
    ItemsAreNotRequests(target, aid, plan[k].offset, data, width);
    RequestsAppend(items, more);
    assert Requests(more) == more;
  }

  /** The element stores a response makes are those of its chunk. */
  lemma ResponseItems(target: Target, aid: u32, base: u64, mem: seq<byte>, plan: seq<Chunk>, k: nat, width: nat)
    requires 0 < width && Within(plan, |mem|) && k < |plan|
    ensures Within([plan[k]], |mem|)
    ensures Items(ResponseEffects(target, aid, base, mem, plan, k, width)) == ChunkItems(target, aid, mem, [plan[k]], width)
  {
    var data := mem[plan[k].offset .. plan[k].offset + plan[k].size];
    var items := ElementItems(target, aid, plan[k].offset, data, width);
    var more := NextRead(base, plan, k);
    assert ResponseEffects(target, aid, base, mem, plan, k, width) == items + more;
    ItemsAppend(items, more);
    ItemsOfItems(target, aid, plan[k].offset, data, width);
    NextReadNoItems(base, plan, k);
    assert items + [] == items;
    ChunkItemsSingle(target, aid, mem, plan[k], width);
  }

  /** A response's read is not an element store. */
  lemma NextReadNoItems(base: u64, plan: seq<Chunk>, k: nat)
    requires k < |plan|
    ensures Items(NextRead(base, plan, k)) == []
  {
    var more := NextRead(base, plan, k);
    if |more| > 0 {
      assert more[1..] == [];
    }
  }

  /** The element stores of a one-chunk plan are that chunk's. */
  lemma ChunkItemsSingle(target: Target, aid: u32, mem: seq<byte>, ch: Chunk, width: nat)
    requires 0 < width && ch.offset + ch.size <= |mem|
    ensures Within([ch], |mem|)
    ensures ChunkItems(target, aid, mem, [ch], width)
         == ElementItems(target, aid, ch.offset, mem[ch.offset .. ch.offset + ch.size], width)
  {
    assert Within([ch], |mem|);
    assert [ch][1..] == [];
    var items := ElementItems(target, aid, ch.offset, mem[ch.offset .. ch.offset + ch.size], width);
    assert items + [] == items;
  }

  /** The reads among the effects of the first `k` responses are those
      the responses issue, one for each next chunk. */
  lemma {:induction false} LoadEffectsRequests(target: Target, aid: u32, base: u64, mem: seq<byte>, plan: seq<Chunk>,
                                               k: nat, width: nat)
    requires 0 < width && Within(plan, |mem|) && k <= |plan|
    ensures Requests(LoadEffects(target, aid, base, mem, plan, k, width)) == NextReads(base, plan, k)
  {
    if k > 0 {
      var j := k - 1;
      LoadEffectsRequests(target, aid, base, mem, plan, j, width);
      var prev := LoadEffects(target, aid, base, mem, plan, j, width);
      var resp := ResponseEffects(target, aid, base, mem, plan, j, width);
      RequestsAppend(prev, resp);
      ResponseRequests(target, aid, base, mem, plan, j, width);
    }
  }

  /** The element stores among the effects of the first `k` responses are
      the stores of the first `k` chunks. */
  lemma {:induction false} LoadEffectsItems(target: Target, aid: u32, base: u64, mem: seq<byte>, plan: seq<Chunk>,
                                            k: nat, width: nat)
    requires 0 < width && Within(plan, |mem|) && k <= |plan|
    ensures Within(plan[..k], |mem|)
    ensures Items(LoadEffects(target, aid, base, mem, plan, k, width)) == ChunkItems(target, aid, mem, plan[..k], width)
  {
    WithinPrefix(plan, |mem|, k);
    if k > 0 {
      var j := k - 1;
      LoadEffectsItems(target, aid, base, mem, plan, j, width);
      var prev := LoadEffects(target, aid, base, mem, plan, j, width);
      var resp := ResponseEffects(target, aid, base, mem, plan, j, width);
      assert LoadEffects(target, aid, base, mem, plan, k, width) == prev + resp;
      ItemsAppend(prev, resp);
      ResponseItems(target, aid, base, mem, plan, j, width);
      SliceSnoc(plan, 0, j);
      assert plan[..k] == plan[..j] + [plan[j]] by {
        assert plan[..k] == plan[0 .. j + 1] && plan[..j] == plan[0..j];
      }
      ChunkItemsAppend(target, aid, mem, plan[..j], [plan[j]], width);
    }
  }

  /** Serving the load `s` from `mem` along its chunk plan `plan` has had
      `k` responses and reached `st` with the effects `effs`. While chunks
      remain, `st` is `s` with the offset at chunk `k`; after the last one
      the command has completed with 0. */
  predicate LoadProgress(c: Config, s: State, mem: seq<byte>, plan: seq<Chunk>, k: nat, st: State, effs: seq<Effect>)
    requires LoadPending(c, s, mem) && 0 < c.inputOperandSize
  {
    && Follows(plan, c.lineSize, s.op.rdBase, s.op.readOffset, s.op.readTotal)
    && 0 < |plan| && k <= |plan| && Within(plan, |mem|)
    && Inv(c, st)
    && (k < |plan| ==>
          && st.busy && st.op.readOffset == plan[k].offset
          && st == s.(op := s.op.(readOffset := st.op.readOffset)))
    && (k == |plan| ==> st == CompleteRoCC(s, 0))
    && effs == LoadEffects(LoadTarget(s.op), s.op.arrayID, s.op.rdBase, mem, plan, k, c.inputOperandSize)
  }

  lemma LoadStart(c: Config, s: State, mem: seq<byte>)
    requires LoadPending(c, s, mem)
    ensures 0 < c.inputOperandSize
    ensures var plan := Chunks(c.lineSize, s.op.rdBase, s.op.readOffset, s.op.readTotal);
      LoadProgress(c, s, mem, plan, 0, s, [])
  {
    ReadBytesNeedWidth(c);
    ChunksFollow(c.lineSize, s.op.rdBase, s.op.readOffset, s.op.readTotal);
    ChunksWithin(c.lineSize, s.op.rdBase, s.op.readOffset, s.op.readTotal);
  }

  /** `o` is what answering the outstanding read of `st` from `mem` does:
      store the chunk's elements and advance the offset by the chunk's
      size, then request the next chunk or complete the command with 0. */
  predicate ReadOutcome(c: Config, st: State, mem: seq<byte>, o: Outcome)
    requires LoadPending(c, st, mem) && 0 < c.inputOperandSize
  {
    var off := st.op.readOffset;
    var n := ChunkSize(c.lineSize, st.op.rdBase as int + off, off, st.op.readTotal);
    && off + n <= st.op.readTotal
    && var items := ElementItems(LoadTarget(st.op), st.op.arrayID, off, mem[off .. off + n], c.inputOperandSize);
       && (off + n == st.op.readTotal ==> o == Outcome(CompleteRoCC(st, 0), items))
       && (off + n < st.op.readTotal ==>
             && o.state == st.(op := st.op.(readOffset := off + n))
             && o.effects == items + [ReadRequest(c, o.state.op)])
  }

  lemma LoadStepState(c: Config, st: State, mem: seq<byte>)
    requires LoadPending(c, st, mem)
    ensures 0 < c.inputOperandSize
    ensures ReadOutcome(c, st, mem, HandleReadResp(c, st, Answer(c, st, mem), false))
  {
    ReadBytesNeedWidth(c);
    ReadRequestIsPlanned(c, st.op);
    ReadResponseAdvances(c, st, Answer(c, st, mem));
  }

  /** The response to chunk `k` of the plan has exactly the effects the
      plan gives it. */
  lemma LoadResponseEffects(c: Config, s: State, mem: seq<byte>, plan: seq<Chunk>, k: nat, st: State, o: Outcome)
    requires LoadPending(c, s, mem) && 0 < c.inputOperandSize
    requires Follows(plan, c.lineSize, s.op.rdBase, s.op.readOffset, s.op.readTotal)
    requires Within(plan, |mem|) && k < |plan| && Inv(c, st)
    requires st.busy && st.op.readOffset == plan[k].offset && st == s.(op := s.op.(readOffset := st.op.readOffset))
    requires ReadOutcome(c, st, mem, o)
    ensures o.effects == ResponseEffects(LoadTarget(s.op), s.op.arrayID, s.op.rdBase, mem, plan, k, c.inputOperandSize)
  {
    var line, base, total := c.lineSize, s.op.rdBase, s.op.readTotal;
    var items := ElementItems(LoadTarget(s.op), s.op.arrayID, plan[k].offset,
                              mem[plan[k].offset .. plan[k].offset + plan[k].size], c.inputOperandSize);
    assert StepOf(plan, k, line, base, total);
    if k + 1 < |plan| {
      assert StepOf(plan, k + 1, line, base, total);
      var next := st.op.(readOffset := plan[k + 1].offset);
      assert o.state.op == next;
      ReadIsPlanned(c, next, plan[k + 1]);
      assert o.effects == items + [ReadRequest(c, next)];
    } else {
      assert o.effects == items;
    }
  }

  /** The read a pending load sends is the chunk the chunker issues at its
      offset. */
  lemma ReadIsPlanned(c: Config, op: OpState, next: Chunk)
    requires op.readOffset < op.readTotal
    requires next == Chunk(op.readOffset, ChunkSize(c.lineSize, op.rdBase + op.readOffset, op.readOffset, op.readTotal))
    ensures ReadRequest(c, op) == ChunkRead(op.rdBase, next)
  {
    ReadRequestIsPlanned(c, op);
  }

  /** The response to chunk `k` of the plan keeps the invariant and moves
      the load on to chunk `k + 1`, or completes it after the last chunk. */
  lemma LoadResponseState(c: Config, s: State, mem: seq<byte>, plan: seq<Chunk>, k: nat, st: State, o: Outcome)
    requires LoadPending(c, s, mem) && 0 < c.inputOperandSize
    requires Follows(plan, c.lineSize, s.op.rdBase, s.op.readOffset, s.op.readTotal)
    requires k < |plan| && Inv(c, st)
    requires st.busy && st.op.readOffset == plan[k].offset && st == s.(op := s.op.(readOffset := st.op.readOffset))
    requires ReadOutcome(c, st, mem, o)
    ensures Inv(c, o.state)
    ensures k + 1 < |plan| ==>
      && o.state.busy && o.state.op.readOffset == plan[k + 1].offset
      && o.state == s.(op := s.op.(readOffset := o.state.op.readOffset))
    ensures k + 1 == |plan| ==> o.state == CompleteRoCC(s, 0)
  {
    assert StepOf(plan, k, c.lineSize, s.op.rdBase, s.op.readTotal);
    CompletionRetiresHead(c, st, 0);
    if k + 1 < |plan| {
      assert StepOf(plan, k + 1, c.lineSize, s.op.rdBase, s.op.readTotal);
    }
  }

  /** One response keeps `LoadProgress`, one chunk further on. */
  lemma LoadStep(c: Config, s: State, mem: seq<byte>, plan: seq<Chunk>, k: nat, st: State, effs: seq<Effect>)
    requires LoadPending(c, s, mem) && 0 < c.inputOperandSize
    requires LoadProgress(c, s, mem, plan, k, st, effs) && st.busy
    ensures LoadPending(c, st, mem)
    ensures var o := HandleReadResp(c, st, Answer(c, st, mem), false);
      && LoadProgress(c, s, mem, plan, k + 1, o.state, effs + o.effects)
      && o.state.op.readTotal - o.state.op.readOffset < st.op.readTotal - st.op.readOffset
  {
    assert k < |plan|;
    LoadStepState(c, st, mem);
    var o := HandleReadResp(c, st, Answer(c, st, mem), false);
    LoadResponseEffects(c, s, mem, plan, k, st, o);
    LoadResponseState(c, s, mem, plan, k, st, o);
    assert StepOf(plan, k, c.lineSize, s.op.rdBase, s.op.readTotal);
  }

  /** A memory holding `mem` answering the read of chunk `ch`: the bytes
      of the chunk, successfully. */
  function ReadAnswer(mem: seq<byte>, ch: Chunk): Event
    requires ch.offset + ch.size <= |mem|
  {
    ReadResp(mem[ch.offset .. ch.offset + ch.size], false)
  }

  /** Memory's answers to the reads of the first `k` chunks of `plan`, in
      order. */
  function ReadAnswers(mem: seq<byte>, plan: seq<Chunk>, k: nat): seq<Event>
    requires Within(plan, |mem|) && k <= |plan|
  {
    if k == 0 then [] else ReadAnswers(mem, plan, k - 1) + [ReadAnswer(mem, plan[k - 1])]
  }

  /** While the load is in progress, the event list that answers the first
      `k` chunks extends by the answer to chunk `k`, which is the response
      `HandleReadResp` is given. */
  lemma LoadRunStep(c: Config, s: State, mem: seq<byte>, plan: seq<Chunk>, k: nat, st: State, effs: seq<Effect>)
    requires LoadPending(c, s, mem) && 0 < c.inputOperandSize
    requires LoadProgress(c, s, mem, plan, k, st, effs) && st.busy
    requires Valid(c, s, ReadAnswers(mem, plan, k)) && Run(c, s, ReadAnswers(mem, plan, k)) == Outcome(st, effs)
    ensures k < |plan| && LoadPending(c, st, mem)
    ensures var o := HandleReadResp(c, st, Answer(c, st, mem), false);
      && Valid(c, s, ReadAnswers(mem, plan, k + 1))
      && Run(c, s, ReadAnswers(mem, plan, k + 1)) == Outcome(o.state, effs + o.effects)
  {
    assert k < |plan|;
    assert StepOf(plan, k, c.lineSize, s.op.rdBase, s.op.readTotal);
    ReadIsPlanned(c, st.op, plan[k]);
    var e := ReadAnswer(mem, plan[k]);
    assert e == ReadResp(Answer(c, st, mem), false);
    assert ReadAnswers(mem, plan, k + 1) == ReadAnswers(mem, plan, k) + [e];
    RunSnoc(c, s, ReadAnswers(mem, plan, k), e);
  }

  /** Serves every outstanding read of the pending load from `mem`, the
      `readTotal` bytes at the load's address, answering each request with
      exactly the bytes it asked for, until the command completes. The
      command completes with 0; every read issued after the one outstanding
      is the next chunk of the plan, in order; and the element stores are
      each chunk's bytes stored at the indices its offset gives. */
  method ServeLoad(c: Config, s: State, mem: seq<byte>) returns (r: Outcome)
    requires Inv(c, s) && s.busy && s.op.curOp in {SetMatrix, LoadVec} && |mem| == s.op.readTotal
    ensures 0 < c.inputOperandSize
    ensures var plan := Chunks(c.lineSize, s.op.rdBase, s.op.readOffset, s.op.readTotal);
      && |plan| > 0 && Within(plan, |mem|)
      && r.state == CompleteRoCC(s, 0)
      && r.effects == LoadEffects(LoadTarget(s.op), s.op.arrayID, s.op.rdBase, mem, plan, |plan|, c.inputOperandSize)
      && Requests(r.effects) == ReadRequests(s.op.rdBase, plan[1..])
      && Items(r.effects) == ChunkItems(LoadTarget(s.op), s.op.arrayID, mem, plan, c.inputOperandSize)
      && Valid(c, s, ReadAnswers(mem, plan, |plan|)) && r == Run(c, s, ReadAnswers(mem, plan, |plan|))
  {
    LoadStart(c, s, mem);
    var plan := Chunks(c.lineSize, s.op.rdBase, s.op.readOffset, s.op.readTotal);
    var k := 0;
    var st := s;
    var effs: seq<Effect> := [];
    while st.busy
      invariant LoadProgress(c, s, mem, plan, k, st, effs)
      invariant Valid(c, s, ReadAnswers(mem, plan, k)) && Run(c, s, ReadAnswers(mem, plan, k)) == Outcome(st, effs)
      decreases st.op.readTotal - st.op.readOffset
    {
      LoadStep(c, s, mem, plan, k, st, effs);
      LoadRunStep(c, s, mem, plan, k, st, effs);
      var o := HandleReadResp(c, st, Answer(c, st, mem), false);
      effs := effs + o.effects;
      st := o.state;
      k := k + 1;
    }
    r := Outcome(st, effs);
    var target, aid, w := LoadTarget(s.op), s.op.arrayID, c.inputOperandSize;
    LoadEffectsRequests(target, aid, s.op.rdBase, mem, plan, |plan|, w);
    NextReadsArePlanned(s.op.rdBase, plan);
    LoadEffectsItems(target, aid, s.op.rdBase, mem, plan, k, w);
    assert plan[..k] == plan;
  }

  /** Effects whose memory requests are a plan's reads and whose element
      stores are `items` write nothing to memory: every request among them
      is one of the plan's reads, and every element store is one of
      `items`. */
  lemma LoadEffectsKinds(effs: seq<Effect>, base: u64, plan: seq<Chunk>, items: seq<Effect>)
    requires Requests(effs) == ReadRequests(base, plan) && Items(effs) == items
    ensures forall e :: e in effs ==> !e.Write?
    ensures forall e :: e in effs && e.Read? ==> e in ReadRequests(base, plan)
    ensures forall e :: e in effs && e.SetItem? ==> e in items
  {
    RequestsFilter(effs);
    ItemsFilter(effs);
    ReadRequestsLayout(base, plan);
    forall e | e in effs && (e.Read? || e.Write?) ensures e.Read? {
      var k :| 0 <= k < |plan| && ReadRequests(base, plan)[k] == e;
      assert e == Read((base + plan[k].offset) % U64, plan[k].size);
    }
  }

  /** A load from idle: the reads that go out are exactly the chunk plan of
      the transfer, in order, the command completes with 0, and the element
      stores are the chunks' stores; when every chunk holds whole elements,
      they are the stores of the whole transfer read at once, which
      `ItemsLayout` gives in closed form. */
  method LoadCommand(c: Config, s: State, out: seq<nat>, mem: seq<byte>) returns (r: Outcome)
    requires Inv(c, s) && !s.busy && |s.queue| > 0 && |out| >= c.arrayOutputSize
    requires s.queue[0].func7 in {1, 2}
    requires |mem| == (if s.queue[0].func7 == 1 then MatrixBytes(c) else VectorBytes(c)) > 0
    ensures 0 < c.inputOperandSize
    ensures var cmd := s.queue[0];
      var target := if cmd.func7 == 1 then Matrix else Vector;
      var plan := Chunks(c.lineSize, cmd.rs1, 0, |mem|);
      && Within(plan, |mem|)
      && r.state == CompleteRoCC(s, 0)
      && Requests(r.effects) == ReadRequests(cmd.rs1, plan)
      && Items(r.effects) == ChunkItems(target, cmd.rs2 % U32, mem, plan, c.inputOperandSize)
      && (WholeElements(plan, c.inputOperandSize) ==>
            Items(r.effects) == TransferItems(target, cmd.rs2 % U32, mem, c.inputOperandSize))
      && (forall e :: e in r.effects ==> !e.Write?)
      && (forall e :: e in r.effects && e.Read? ==> e in ReadRequests(cmd.rs1, plan))
      && (forall e :: e in r.effects && e.SetItem? ==>
            e in ChunkItems(target, cmd.rs2 % U32, mem, plan, c.inputOperandSize))
    ensures var plan := Chunks(c.lineSize, s.queue[0].rs1, 0, |mem|);
      Within(plan, |mem|) &&
      var events := [Clock(out)] + ReadAnswers(mem, plan, |plan|);
      Valid(c, s, events) && r == Run(c, s, events)
  {
    TickLoad(c, s, out);
    var o := Tick(c, s, out);
    var rest := ServeLoad(c, o.state, mem);
    r := Outcome(rest.state, o.effects + rest.effects);
    var cmd := s.queue[0];
    var plan := Chunks(c.lineSize, cmd.rs1, 0, |mem|);
    LoadOpening(c, s, out, mem);
    RequestsAppend(o.effects, rest.effects);
    ItemsAppend(o.effects, rest.effects);
    RunCons(c, s, Clock(out), ReadAnswers(mem, plan, |plan|));
    LoadEffectsKinds(r.effects, cmd.rs1, plan, Items(r.effects));
    var target := if cmd.func7 == 1 then Matrix else Vector;
    if WholeElements(plan, c.inputOperandSize) {
      ChunksCover(c.lineSize, cmd.rs1, 0, |mem|);
      ChunkItemsWhole(target, cmd.rs2 % U32, mem, plan, 0, c.inputOperandSize);
      assert mem[0..] == mem;
    }
  }

  /** The tick that starts a load issues the plan's first read and nothing
      else, and completing the load it starts completes the command. */
  lemma LoadOpening(c: Config, s: State, out: seq<nat>, mem: seq<byte>)
    requires Inv(c, s) && !s.busy && |s.queue| > 0 && |out| >= c.arrayOutputSize
    requires s.queue[0].func7 in {1, 2}
    requires |mem| == (if s.queue[0].func7 == 1 then MatrixBytes(c) else VectorBytes(c)) > 0
    ensures var o := Tick(c, s, out);
      var cmd := s.queue[0];
      var plan := Chunks(c.lineSize, cmd.rs1, 0, |mem|);
      && |plan| > 0
      && o.state.busy && o.state.op.rdBase == cmd.rs1 && o.state.op.readOffset == 0
      && o.state.op.arrayID == cmd.rs2 % U32
      && LoadTarget(o.state.op) == (if cmd.func7 == 1 then Matrix else Vector)
      && Requests(o.effects) + ReadRequests(cmd.rs1, plan[1..]) == ReadRequests(cmd.rs1, plan)
      && Items(o.effects) == []
      && CompleteRoCC(o.state, 0) == CompleteRoCC(s, 0)
  {
    TickLoad(c, s, out);
    var o := Tick(c, s, out);
    var cmd := s.queue[0];
    var plan := Chunks(c.lineSize, cmd.rs1, 0, |mem|);
    ChunksFollow(c.lineSize, cmd.rs1, 0, |mem|);
    PlanHead(plan, c.lineSize, cmd.rs1, 0, |mem|);
    ReadRequestsHead(cmd.rs1, plan);
    DivModUnique(cmd.rs1 + 0, U64, 0, cmd.rs1);
    var first := Read(cmd.rs1, ChunkSize(c.lineSize, cmd.rs1, 0, |mem|));
    assert o.effects == [first] && ChunkRead(cmd.rs1, plan[0]) == first;
    assert Requests(o.effects) == [first] && Items(o.effects) == [];
  }

  /** The write of one chunk: its slice of `payload` sent to `base` plus
      the chunk's offset, the sum wrapping at 64 bits. */
  function ChunkWrite(base: u64, ch: Chunk, payload: seq<byte>): Effect
    requires ch.offset + ch.size <= |payload|
  {
    Write((base + ch.offset) % U64, ch.size, payload[ch.offset .. ch.offset + ch.size])
  }

  /** The writes the chunk plan `cs` issues for `payload` sent to `base`. */
  function WriteRequests(base: u64, cs: seq<Chunk>, payload: seq<byte>): (r: seq<Effect>)
    requires Within(cs, |payload|)
    ensures |r| == |cs|
  {
    if |cs| == 0 then [] else [ChunkWrite(base, cs[0], payload)] + WriteRequests(base, cs[1..], payload)
  }

  /** The bytes the writes among `effs` carry, concatenated in order. */
  function WrittenBytes(effs: seq<Effect>): seq<byte>
  {
    if |effs| == 0 then []
    else (if effs[0].Write? then effs[0].data else []) + WrittenBytes(effs[1..])
  }

  /** Writing chunks that cover `[offset, total)` sends exactly that slice
      of the payload, in order. */
  lemma {:induction false} PlannedWritesCoverPayload(base: u64, cs: seq<Chunk>, offset: nat, total: nat, payload: seq<byte>)
    requires Covers(cs, offset, total) && total <= |payload|
    ensures Within(cs, |payload|) && offset <= total
    ensures WrittenBytes(WriteRequests(base, cs, payload)) == payload[offset .. total]
    decreases |cs|
  {
    CoversWithin(cs, offset, total);
    assert Within(cs, |payload|);
    if |cs| > 0 {
      var n := cs[0].size;
      PlannedWritesCoverPayload(base, cs[1..], offset + n, total, payload);
      WriteRequestsHead(base, cs, payload);
      var more := WriteRequests(base, cs[1..], payload);
      var w := Write((base + offset) % U64, n, payload[offset .. offset + n]);
      assert WriteRequests(base, cs, payload)[1..] == more;
      assert WrittenBytes(WriteRequests(base, cs, payload)) == payload[offset .. offset + n] + WrittenBytes(more);
      assert payload[offset .. total] == payload[offset .. offset + n] + payload[offset + n .. total];
    } else {
      assert payload[offset .. total] == [];
    }
  }

  /** A plan's writes are all memory requests. */
  lemma {:induction false} WriteRequestsAreRequests(base: u64, cs: seq<Chunk>, payload: seq<byte>)
    requires Within(cs, |payload|)
    ensures Requests(WriteRequests(base, cs, payload)) == WriteRequests(base, cs, payload)
  {
    if |cs| > 0 {
      var ws := WriteRequests(base, cs, payload);
      assert Within(cs[1..], |payload|) by {
        forall k | 0 <= k < |cs[1..]| ensures cs[1..][k].offset + cs[1..][k].size <= |payload| {
          assert cs[1..][k] == cs[k + 1];
        }
      }
      WriteRequestsAreRequests(base, cs[1..], payload);
      assert ws[1..] == WriteRequests(base, cs[1..], payload);
    }
  }

  /** The request a pending write sends is the chunk at its offset, with
      that slice of the payload. */
  lemma WriteRequestIsPlanned(c: Config, op: OpState)
    requires op.writeOffset < op.writeTotal <= |op.outputPayload|
    ensures var n := ChunkSize(c.lineSize, op.wrBase + op.writeOffset, op.writeOffset, op.writeTotal);
      WriteRequest(c, op) == Write((op.wrBase + op.writeOffset) % U64, n,
                                   op.outputPayload[op.writeOffset .. op.writeOffset + n])
  {
    if op.writeOffset == 0 {
      DivModUnique(op.wrBase + 0, U64, 0, op.wrBase);
    }
  }

  lemma WriteRequestsHead(base: u64, cs: seq<Chunk>, payload: seq<byte>)
    requires Within(cs, |payload|) && |cs| > 0
    ensures Within(cs[1..], |payload|)
    ensures WriteRequests(base, cs, payload)
         == [ChunkWrite(base, cs[0], payload)]
            + WriteRequests(base, cs[1..], payload)
  {
    WithinSuffix(cs, |payload|, 1);
  }

  /** The writes of `cs` followed by one more chunk's write. */
  lemma {:induction false} WriteRequestsSnoc(base: u64, cs: seq<Chunk>, c: Chunk, payload: seq<byte>)
    requires Within(cs, |payload|) && c.offset + c.size <= |payload|
    ensures Within(cs + [c], |payload|)
    ensures WriteRequests(base, cs + [c], payload)
         == WriteRequests(base, cs, payload) + [ChunkWrite(base, c, payload)]
  {
    assert Within([c], |payload|);
    WithinAppend(cs, [c], |payload|);
    if |cs| == 0 {
      assert cs + [c] == [c];
    } else {
      WithinSuffix(cs, |payload|, 1);
      WriteRequestsSnoc(base, cs[1..], c, payload);
      WriteRequestsSnocStep(base, cs, c, payload);
    }
  }

  /** The inductive step of `WriteRequestsSnoc`. */
  lemma WriteRequestsSnocStep(base: u64, cs: seq<Chunk>, c: Chunk, payload: seq<byte>)
    requires Within(cs, |payload|) && |cs| > 0 && c.offset + c.size <= |payload| && Within(cs + [c], |payload|)
    requires Within(cs[1..], |payload|) && Within(cs[1..] + [c], |payload|)
    requires WriteRequests(base, cs[1..] + [c], payload)
          == WriteRequests(base, cs[1..], payload) + [ChunkWrite(base, c, payload)]
    ensures WriteRequests(base, cs + [c], payload)
         == WriteRequests(base, cs, payload) + [ChunkWrite(base, c, payload)]
  {
    var first, last := [ChunkWrite(base, cs[0], payload)], [ChunkWrite(base, c, payload)];
    TailAppend(cs, [c]);
    WriteRequestsHead(base, cs + [c], payload);
    WriteRequestsHead(base, cs, payload);
    AppendAssoc(first, WriteRequests(base, cs[1..], payload), last);
  }

  /** What the interface does on the acknowledgement of chunk `k` of a
      store plan: the write of chunk `k + 1` if there is one. */
  function AckEffects(base: u64, payload: seq<byte>, plan: seq<Chunk>, k: nat): seq<Effect>
    requires Within(plan, |payload|) && k < |plan|
  {
    if k + 1 < |plan| then
      [ChunkWrite(base, plan[k + 1], payload)]
    else []
  }

  /** Everything the interface does over the acknowledgements of the first
      `k` chunks of a store plan, in order. */
  function StoreEffects(base: u64, payload: seq<byte>, plan: seq<Chunk>, k: nat): seq<Effect>
    requires Within(plan, |payload|) && k <= |plan|
  {
    if k == 0 then [] else StoreEffects(base, payload, plan, k - 1) + AckEffects(base, payload, plan, k - 1)
  }

  /** The effects of the first `k` acknowledgements are the writes of
      chunks `1` to `k`: each acknowledgement but the last sends the next
      chunk. */
  lemma {:induction false} StoreEffectsWrites(base: u64, payload: seq<byte>, plan: seq<Chunk>, k: nat)
    requires Within(plan, |payload|) && 0 < |plan| && k <= |plan|
    ensures Within(plan[1..], |payload|)
    ensures k < |plan| ==>
      && Within(plan[1 .. k + 1], |payload|)
      && StoreEffects(base, payload, plan, k) == WriteRequests(base, plan[1 .. k + 1], payload)
    ensures k == |plan| ==> StoreEffects(base, payload, plan, k) == WriteRequests(base, plan[1..], payload)
  {
    WithinSuffix(plan, |payload|, 1);
    if k > 0 {
      var j := k - 1;
      StoreEffectsWrites(base, payload, plan, j);
      assert StoreEffects(base, payload, plan, k)
          == StoreEffects(base, payload, plan, j) + AckEffects(base, payload, plan, j);
      if k < |plan| {
        SliceSnoc(plan, 1, k);
        WriteRequestsSnoc(base, plan[1..k], plan[k], payload);
      } else {
        assert plan[1..k] == plan[1..];
      }
    } else {
      assert plan[1..1] == [];
    }
  }

  /** Serving the store `s` along its chunk plan `plan` has had `k`
      acknowledgements and reached `st` with the effects `effs`. While
      chunks remain, `st` is `s` with the offset at chunk `k`; after the
      last one the command has completed with 0. */
  predicate StoreProgress(c: Config, s: State, plan: seq<Chunk>, k: nat, st: State, effs: seq<Effect>)
    requires Inv(c, s) && s.busy && s.op.curOp == StoreVec
  {
    && Follows(plan, c.lineSize, s.op.wrBase, s.op.writeOffset, s.op.writeTotal)
    && 0 < |plan| && k <= |plan| && Within(plan, |s.op.outputPayload|)
    && Inv(c, st)
    && (k < |plan| ==>
          && st.busy && st.op.writeOffset == plan[k].offset
          && st == s.(op := s.op.(writeOffset := st.op.writeOffset)))
    && (k == |plan| ==> st == CompleteRoCC(s, 0))
    && effs == StoreEffects(s.op.wrBase, s.op.outputPayload, plan, k)
  }

  lemma StoreStart(c: Config, s: State)
    requires Inv(c, s) && s.busy && s.op.curOp == StoreVec
    ensures var plan := Chunks(c.lineSize, s.op.wrBase, s.op.writeOffset, s.op.writeTotal);
      && StoreProgress(c, s, plan, 0, s, [])
      && WriteRequests(s.op.wrBase, plan, s.op.outputPayload)
         == [WriteRequest(c, s.op)] + WriteRequests(s.op.wrBase, plan[1..], s.op.outputPayload)
  {
    var plan := Chunks(c.lineSize, s.op.wrBase, s.op.writeOffset, s.op.writeTotal);
    ChunksFollow(c.lineSize, s.op.wrBase, s.op.writeOffset, s.op.writeTotal);
    ChunksWithin(c.lineSize, s.op.wrBase, s.op.writeOffset, s.op.writeTotal);
    PlanHead(plan, c.lineSize, s.op.wrBase, s.op.writeOffset, s.op.writeTotal);
    WriteRequestsHead(s.op.wrBase, plan, s.op.outputPayload);
    WriteIsPlanned(c, s.op, plan[0]);
  }

  /** The write a pending store sends is the chunk the chunker issues at
      its offset. */
  lemma WriteIsPlanned(c: Config, op: OpState, next: Chunk)
    requires op.writeOffset < op.writeTotal <= |op.outputPayload|
    requires next == Chunk(op.writeOffset, ChunkSize(c.lineSize, op.wrBase + op.writeOffset, op.writeOffset, op.writeTotal))
    ensures WriteRequest(c, op) == ChunkWrite(op.wrBase, next, op.outputPayload)
  {
    WriteRequestIsPlanned(c, op);
  }

  /** A plan from `offset`, short of the total, starts with the chunk the
      chunker issues there. */
  lemma PlanHead(plan: seq<Chunk>, line: nat, base: nat, offset: nat, total: nat)
    requires 0 < line && offset < total && Follows(plan, line, base, offset, total)
    ensures 0 < |plan| && plan[0] == Chunk(offset, ChunkSize(line, base + offset, offset, total))
  {
    assert StepOf(plan, 0, line, base, total);
  }

  /** `o` is what a successful acknowledgement of the pending write of `st`
      does: advance the offset by the chunk's size, then send the next
      chunk or complete the command with 0. */
  predicate AckOutcome(c: Config, st: State, o: Outcome)
    requires Inv(c, st) && st.busy && st.op.curOp == StoreVec
  {
    var off := st.op.writeOffset;
    var n := ChunkSize(c.lineSize, st.op.wrBase as int + off, off, st.op.writeTotal);
    && off + n <= st.op.writeTotal
    && (off + n == st.op.writeTotal ==> o == Outcome(CompleteRoCC(st, 0), []))
    && (off + n < st.op.writeTotal ==>
          && o.state == st.(op := st.op.(writeOffset := off + n))
          && o.effects == [WriteRequest(c, o.state.op)])
  }

  lemma StoreAckState(c: Config, st: State)
    requires Inv(c, st) && st.busy && st.op.curOp == StoreVec
    ensures AckOutcome(c, st, HandleWriteResp(c, st, false))
  {
    WriteResponseAdvances(c, st);
    WriteRequestIsPlanned(c, st.op);
  }

  /** The acknowledgement of chunk `k` of the plan has exactly the effects
      the plan gives it. */
  lemma StoreResponseEffects(c: Config, s: State, plan: seq<Chunk>, k: nat, st: State, o: Outcome)
    requires Inv(c, s) && s.busy && s.op.curOp == StoreVec
    requires Follows(plan, c.lineSize, s.op.wrBase, s.op.writeOffset, s.op.writeTotal)
    requires Within(plan, |s.op.outputPayload|) && k < |plan| && Inv(c, st)
    requires st.busy && st.op.writeOffset == plan[k].offset && st == s.(op := s.op.(writeOffset := st.op.writeOffset))
    requires AckOutcome(c, st, o)
    ensures o.effects == AckEffects(s.op.wrBase, s.op.outputPayload, plan, k)
  {
    var line, base, total := c.lineSize, s.op.wrBase, s.op.writeTotal;
    assert StepOf(plan, k, line, base, total);
    if k + 1 < |plan| {
      assert StepOf(plan, k + 1, line, base, total);
      var next := st.op.(writeOffset := plan[k + 1].offset);
      assert o.state.op == next;
      WriteIsPlanned(c, next, plan[k + 1]);
      assert o.effects == [WriteRequest(c, next)];
    } else {
      assert o.effects == [];
    }
  }

  /** The acknowledgement of chunk `k` of the plan moves the store on to
      chunk `k + 1`, or completes it after the last chunk. */
  lemma StoreResponseState(c: Config, s: State, plan: seq<Chunk>, k: nat, st: State, o: Outcome)
    requires Inv(c, s) && s.busy && s.op.curOp == StoreVec
    requires Follows(plan, c.lineSize, s.op.wrBase, s.op.writeOffset, s.op.writeTotal)
    requires k < |plan| && Inv(c, st)
    requires st.busy && st.op.writeOffset == plan[k].offset && st == s.(op := s.op.(writeOffset := st.op.writeOffset))
    requires AckOutcome(c, st, o)
    ensures k + 1 < |plan| ==>
      && o.state.busy && o.state.op.writeOffset == plan[k + 1].offset
      && o.state == s.(op := s.op.(writeOffset := o.state.op.writeOffset))
    ensures k + 1 == |plan| ==> o.state == CompleteRoCC(s, 0)
  {
    assert StepOf(plan, k, c.lineSize, s.op.wrBase, s.op.writeTotal);
    if k + 1 < |plan| {
      assert StepOf(plan, k + 1, c.lineSize, s.op.wrBase, s.op.writeTotal);
    }
  }

  /** One acknowledgement keeps `StoreProgress`, one chunk further on. */
  lemma StoreStep(c: Config, s: State, plan: seq<Chunk>, k: nat, st: State, effs: seq<Effect>)
    requires Inv(c, s) && s.busy && s.op.curOp == StoreVec
    requires StoreProgress(c, s, plan, k, st, effs) && st.busy
    ensures Inv(c, st) && st.busy && st.op.curOp == StoreVec
    ensures var o := HandleWriteResp(c, st, false);
      && StoreProgress(c, s, plan, k + 1, o.state, effs + o.effects)
      && o.state.op.writeTotal - o.state.op.writeOffset < st.op.writeTotal - st.op.writeOffset
  {
    assert k < |plan|;
    StoreAckState(c, st);
    var o := HandleWriteResp(c, st, false);
    StoreResponseEffects(c, s, plan, k, st, o);
    StoreResponseState(c, s, plan, k, st, o);
    assert StepOf(plan, k, c.lineSize, s.op.wrBase, s.op.writeTotal);
  }

  /** `n` successful write acknowledgements. */
  function Acks(n: nat): seq<Event>
  {
    if n == 0 then [] else Acks(n - 1) + [WriteResp(false)]
  }

  /** While the store is in progress, one more acknowledgement extends the
      run by the step `HandleWriteResp` takes. */
  lemma StoreRunStep(c: Config, s: State, plan: seq<Chunk>, k: nat, st: State, effs: seq<Effect>)
    requires Inv(c, s) && s.busy && s.op.curOp == StoreVec
    requires StoreProgress(c, s, plan, k, st, effs) && st.busy
    requires Valid(c, s, Acks(k)) && Run(c, s, Acks(k)) == Outcome(st, effs)
    ensures var o := HandleWriteResp(c, st, false);
      Valid(c, s, Acks(k + 1)) && Run(c, s, Acks(k + 1)) == Outcome(o.state, effs + o.effects)
  {
    RunSnoc(c, s, Acks(k), WriteResp(false));
  }

  /** Acknowledges every outstanding write of the pending store until the
      command completes. The command completes with 0, and the writes
      issued after the one outstanding are the rest of the chunk plan, each
      carrying its slice of the payload. */
  method ServeStore(c: Config, s: State) returns (r: Outcome)
    requires Inv(c, s) && s.busy && s.op.curOp == StoreVec
    ensures var plan := Chunks(c.lineSize, s.op.wrBase, s.op.writeOffset, s.op.writeTotal);
      && |plan| > 0 && Within(plan, |s.op.outputPayload|)
      && r.state == CompleteRoCC(s, 0)
      && [WriteRequest(c, s.op)] + r.effects == WriteRequests(s.op.wrBase, plan, s.op.outputPayload)
      && Valid(c, s, Acks(|plan|)) && r == Run(c, s, Acks(|plan|))
  {
    StoreStart(c, s);
    var plan := Chunks(c.lineSize, s.op.wrBase, s.op.writeOffset, s.op.writeTotal);
    var k := 0;
    var st := s;
    var effs: seq<Effect> := [];
    while st.busy
      invariant StoreProgress(c, s, plan, k, st, effs)
      invariant Valid(c, s, Acks(k)) && Run(c, s, Acks(k)) == Outcome(st, effs)
      decreases st.op.writeTotal - st.op.writeOffset
    {
      StoreStep(c, s, plan, k, st, effs);
      StoreRunStep(c, s, plan, k, st, effs);
      var o := HandleWriteResp(c, st, false);
      effs := effs + o.effects;
      st := o.state;
      k := k + 1;
    }
    r := Outcome(st, effs);
    StoreEffectsWrites(s.op.wrBase, s.op.outputPayload, plan, k);
  }

  /** A store from idle: the writes that go out are exactly the chunk plan
      of the transfer with each chunk's slice of the payload, together they
      carry the whole payload in order, what they carry reads back, width
      by width, as the first `arrayOutputSize` output values each reduced
      to the output operand width, and the command completes with 0. */
  method StoreCommand(c: Config, s: State, out: seq<nat>) returns (r: Outcome)
    requires Inv(c, s) && !s.busy && |s.queue| > 0 && |out| >= c.arrayOutputSize
    requires s.queue[0].func7 == 4 && StoreBytes(c) > 0
    ensures var cmd := s.queue[0];
      var payload := Pack(out[..c.arrayOutputSize], c.outputOperandSize);
      var plan := Chunks(c.lineSize, cmd.rs1, 0, |payload|);
      && |payload| == StoreBytes(c)
      && Within(plan, |payload|)
      && r.state == CompleteRoCC(s, 0)
      && r.effects == WriteRequests(cmd.rs1, plan, payload)
      && WrittenBytes(r.effects) == payload
    ensures 0 < c.outputOperandSize
    ensures Unpack(WrittenBytes(r.effects), c.outputOperandSize)
         == Reduced(out[..c.arrayOutputSize], c.outputOperandSize)
    ensures var plan := Chunks(c.lineSize, s.queue[0].rs1, 0, StoreBytes(c));
      var events := [Clock(out)] + Acks(|plan|);
      Valid(c, s, events) && r == Run(c, s, events)
  {
    MulPositive(c.arrayOutputSize, c.outputOperandSize);
    StoreOpening(c, s, out);
    var o := Tick(c, s, out);
    var rest := ServeStore(c, o.state);
    r := Outcome(rest.state, o.effects + rest.effects);
    var vals := out[..c.arrayOutputSize];
    var payload := Pack(vals, c.outputOperandSize);
    PlannedWritesPayload(s.queue[0].rs1, c.lineSize, payload);
    UnpackPack(vals, c.outputOperandSize);
    var plan := Chunks(c.lineSize, s.queue[0].rs1, 0, StoreBytes(c));
    RunCons(c, s, Clock(out), Acks(|plan|));
  }

  /** The tick that starts a store sends the first write of the transfer
      and nothing else, and completing the store it starts completes the
      command. */
  lemma StoreOpening(c: Config, s: State, out: seq<nat>)
    requires Inv(c, s) && !s.busy && |s.queue| > 0 && |out| >= c.arrayOutputSize
    requires s.queue[0].func7 == 4 && StoreBytes(c) > 0
    ensures var o := Tick(c, s, out);
      var payload := Pack(out[..c.arrayOutputSize], c.outputOperandSize);
      && Inv(c, o.state) && o.state.busy && o.state.op.curOp == StoreVec
      && o.state.op.wrBase == s.queue[0].rs1 && o.state.op.writeOffset == 0
      && o.state.op.writeTotal == |payload| == StoreBytes(c)
      && o.state.op.outputPayload == payload
      && o.effects == [WriteRequest(c, o.state.op)]
      && CompleteRoCC(o.state, 0) == CompleteRoCC(s, 0)
  {
    TickStore(c, s, out);
  }

  /** Writing the whole chunk plan of `payload` sends exactly the payload. */
  lemma PlannedWritesPayload(base: u64, line: nat, payload: seq<byte>)
    requires 0 < line
    ensures var plan := Chunks(line, base, 0, |payload|);
      && Within(plan, |payload|)
      && WrittenBytes(WriteRequests(base, plan, payload)) == payload
  {
    ChunksCover(line, base, 0, |payload|);
    PlannedWritesCoverPayload(base, Chunks(line, base, 0, |payload|), 0, |payload|, payload);
    assert payload[0 .. |payload|] == payload;
  }
}

=== FILE: rocc.dfy ===
/** The command interface's operations, one pure function per event or
    helper of `RoCCAnalog<T>` (utils/sst-elements/newrocc.h). Each takes
    the state before and returns the state after together with the
    effects on the memory service and the compute array. */
module RoCC {
  import opened Basics
  import opened Words
  import opened Chunking
  import opened RoCCState

  /** The line size the interface adopts from its memory: a memory that
      reports 0 gets 64. */
  function LineSizeFor(reported: u32): (l: LineSize)
    ensures reported != 0 ==> l == reported
    ensures reported == 0 ==> l == 64
  {
    if reported == 0 then 64 else reported
  }

  /** Init: the configuration takes the line size memory reports (0
      becoming 64) and nothing else changes in it; the state has nothing
      queued or outstanding, is idle with no response and no pending
      operation, and has one clear busy entry per configured array. */
  function Init(c: Config, reported: u32): (r: (Config, State))
    ensures r.0.lineSize == LineSizeFor(reported) && r.0.(lineSize := c.lineSize) == c
    ensures Inv(r.0, r.1) && Outstanding(r.0, r.1) == None
    ensures r.1.queue == [] && !r.1.busy && r.1.resp == None && r.1.op == Neutral
    ensures |r.1.arrayBusy| == c.numArrays && forall a :: 0 <= a < |r.1.arrayBusy| ==> !r.1.arrayBusy[a]
  {
    (c.(lineSize := LineSizeFor(reported)), State([], false, None, 0, seq(c.numArrays, _ => false), Neutral))
  }

  /** The queue has reached its configured capacity: exactly when one more
      push would take it beyond `maxInstructions`. */
  function RoCCFull(c: Config, s: State): (full: bool)
    ensures forall cmd :: full <==> |Push(s, cmd).queue| > c.maxInstructions
  {
    |s.queue| >= c.maxInstructions
  }

  /** `isBusy`: a command is being served (`RoCCProps.BusyMeansServing`). */
  function IsBusy(s: State): bool
  {
    s.busy
  }

  /** `roccQueueSize`: the commands pushed and not yet retired, the one
      being served included (`RoCCRuns.RunQueueSize`). */
  function RoCCQueueSize(s: State): nat
  {
    |s.queue|
  }

  /** Appends a command and counts it as issued. Capacity is not checked
      here; callers consult `RoCCFull` first. */
  function Push(s: State, cmd: Command): (t: State)
    ensures |t.queue| == |s.queue| + 1 && t.queue[..|s.queue|] == s.queue && t.queue[|s.queue|] == cmd
    ensures t.issued == s.issued + 1
    ensures t.(queue := s.queue, issued := s.issued) == s
  {
    s.(queue := s.queue + [cmd], issued := s.issued + 1)
  }

  /** Hands the stored response to the host and empties the slot. */
  function Respond(s: State): (r: (State, Option<Response>))
    ensures r.1 == s.resp && r.0.resp == None
    ensures r.0.(resp := s.resp) == s
  {
    (s.(resp := None), s.resp)
  }

  /** Retires the command at the head of the queue with `value`. */
  function CompleteRoCC(s: State, value: u64): (t: State)
    requires |s.queue| > 0
    ensures [s.queue[0]] + t.queue == s.queue
    ensures !t.busy && t.op == Neutral
    ensures t.resp == Some(Response(s.queue[0].rd, value))
    ensures t.arrayBusy == s.arrayBusy && t.issued == s.issued
  {
    State(s.queue[1..], false, Some(Response(s.queue[0].rd, value)), s.issued, s.arrayBusy, Neutral)
  }

  /** Issues the next chunk of the pending read, or completes with 0 when
      nothing is left to read. The first chunk runs to the end of its line
      or the end of the transfer, whichever comes first; later ones take a
      whole line or what is left. */
  function SendNextReadChunk(c: Config, s: State): (o: Outcome)
    requires |s.queue| > 0
    ensures s.op.readOffset >= s.op.readTotal ==> o == Outcome(CompleteRoCC(s, 0), [])
    ensures s.op.readOffset < s.op.readTotal ==>
      && o.state == s && |o.effects| == 1 && o.effects[0].Read?
      && var addr, n := o.effects[0].addr, o.effects[0].size;
         && addr == (s.op.rdBase + s.op.readOffset) % U64
         && 0 < n <= c.lineSize && s.op.readOffset + n <= s.op.readTotal
         && (s.op.readOffset == 0 ==>
               n == Min(c.lineSize - addr % c.lineSize, s.op.readTotal) && addr % c.lineSize + n <= c.lineSize)
         && (s.op.readOffset > 0 ==>
               n == Min(c.lineSize, s.op.readTotal - s.op.readOffset)
               && (n == c.lineSize || s.op.readOffset + n == s.op.readTotal))
  {
    if s.op.readOffset >= s.op.readTotal then Outcome(CompleteRoCC(s, 0), [])
    else
      ChunkSizeOnLine(c.lineSize, (s.op.rdBase + s.op.readOffset) % U64, s.op.readOffset, s.op.readTotal);
      Outcome(s, [ReadRequest(c, s.op)])
  }

  /** Issues the next chunk of the pending write, the payload bytes at the
      write offset, or completes with 0 when nothing is left to write. */
  function SendNextWriteChunk(c: Config, s: State): (o: Outcome)
    requires |s.queue| > 0 && s.op.writeTotal <= |s.op.outputPayload|
    ensures s.op.writeOffset >= s.op.writeTotal ==> o == Outcome(CompleteRoCC(s, 0), [])
    ensures s.op.writeOffset < s.op.writeTotal ==>
      && o.state == s && |o.effects| == 1 && o.effects[0].Write?
      && var addr, n, off := o.effects[0].addr, o.effects[0].size, s.op.writeOffset;
         && addr == (s.op.wrBase + off) % U64
         && 0 < n <= c.lineSize && off + n <= s.op.writeTotal
         && o.effects[0].data == s.op.outputPayload[off .. off + n]
         && (off == 0 ==>
               n == Min(c.lineSize - addr % c.lineSize, s.op.writeTotal) && addr % c.lineSize + n <= c.lineSize)
         && (off > 0 ==>
               n == Min(c.lineSize, s.op.writeTotal - off) && (n == c.lineSize || off + n == s.op.writeTotal))
  {
    if s.op.writeOffset >= s.op.writeTotal then Outcome(CompleteRoCC(s, 0), [])
    else
      ChunkSizeOnLine(c.lineSize, (s.op.wrBase + s.op.writeOffset) % U64, s.op.writeOffset, s.op.writeTotal);
      Outcome(s, [WriteRequest(c, s.op)])
  }

  /** Starts reading a whole matrix, `MatrixBytes(c)` bytes from `base`, into
      array `aid`: an empty matrix completes with 0 at once, otherwise the
      read of the first chunk, from `base` to the end of its line or of the
      matrix, goes out. */
  function StartSetMatrix(c: Config, s: State, base: u64, aid: u32): (o: Outcome)
    requires |s.queue| > 0
    ensures MatrixBytes(c) == 0 ==> o == Outcome(CompleteRoCC(s, 0), [])
    ensures MatrixBytes(c) > 0 ==>
      && o.state == s.(op := o.state.op)
      && o.state.op == s.op.(curOp := SetMatrix, arrayID := aid, rdBase := base, readOffset := 0,
                             readTotal := MatrixBytes(c))
      && |o.effects| == 1 && o.effects[0].Read? && o.effects[0].addr == base
      && o.effects[0].size == Min(c.lineSize - base % c.lineSize, MatrixBytes(c))
      && base % c.lineSize + o.effects[0].size <= c.lineSize && o.effects[0].size <= MatrixBytes(c)
  {
    DivModUnique(base + 0, U64, 0, base);
    SendNextReadChunk(c, s.(op := s.op.(curOp := SetMatrix, arrayID := aid, rdBase := base,
                                        readOffset := 0, readTotal := MatrixBytes(c))))
  }

  /** Starts reading an input vector, `VectorBytes(c)` bytes from `base`,
      into array `aid`, the same way. */
  function StartLoadVector(c: Config, s: State, base: u64, aid: u32): (o: Outcome)
    requires |s.queue| > 0
    ensures VectorBytes(c) == 0 ==> o == Outcome(CompleteRoCC(s, 0), [])
    ensures VectorBytes(c) > 0 ==>
      && o.state == s.(op := o.state.op)
      && o.state.op == s.op.(curOp := LoadVec, arrayID := aid, rdBase := base, readOffset := 0,
                             readTotal := VectorBytes(c))
      && |o.effects| == 1 && o.effects[0].Read? && o.effects[0].addr == base
      && o.effects[0].size == Min(c.lineSize - base % c.lineSize, VectorBytes(c))
      && base % c.lineSize + o.effects[0].size <= c.lineSize && o.effects[0].size <= VectorBytes(c)
  {
    DivModUnique(base + 0, U64, 0, base);
    SendNextReadChunk(c, s.(op := s.op.(curOp := LoadVec, arrayID := aid, rdBase := base,
                                        readOffset := 0, readTotal := VectorBytes(c))))
  }

  /** `std::vector<bool>::resize(n, false)`: keeps the first `n` entries and
      pads with clear ones up to `n`. */
  function Resize(table: seq<bool>, n: nat): (t: seq<bool>)
    ensures |t| == n
    ensures forall a :: 0 <= a < n && a < |table| ==> t[a] == table[a]
    ensures forall a :: |table| <= a < n ==> !t[a]
  {
    if n <= |table| then table[..n] else table + seq(n - |table|, _ => false)
  }

  /** The busy table as `startCompute` leaves it before marking `aid`, as
      written: the new length `arrayID + 1` is computed in `uint32_t`. */
  function GrowTableAsWritten(table: seq<bool>, aid: u32): (t: seq<bool>)
    ensures aid < |table| ==> t == table
    ensures aid >= |table| ==> |t| == (aid + 1) % U32
    ensures forall a :: 0 <= a < |t| && a < |table| ==> t[a] == table[a]
  {
    if aid >= |table| then Resize(table, (aid + 1) % U32) else table
  }

  /** The busy table `startCompute` means to leave: long enough to hold
      `aid`, no longer than needed, the old entries kept and the new ones
      clear. */
  function GrowTable(table: seq<bool>, aid: u32): (t: seq<bool>)
    ensures aid < |t| && |table| <= |t|
    ensures aid >= |table| ==> |t| == aid + 1
    ensures aid < |table| ==> t == table
    ensures forall a :: 0 <= a < |table| ==> t[a] == table[a]
    ensures forall a :: |table| <= a < |t| ==> !t[a]
  {
    if aid >= |table| then Resize(table, aid + 1) else table
  }

  /** For the largest array id the written length wraps to 0: the table is
      emptied and `aid` is no index of it, so the store that marks the
      array busy is out of range. */
  lemma GrowTableAsWrittenWraps(table: seq<bool>)
    requires |table| <= 0xFFFF_FFFF
    ensures GrowTableAsWritten(table, 0xFFFF_FFFF) == []
    ensures |GrowTable(table, 0xFFFF_FFFF)| == 0x1_0000_0000
  {
  }

  /** Below the largest id the written code and the intended table agree. */
  lemma GrowTableAgrees(table: seq<bool>, aid: u32)
    requires aid < 0xFFFF_FFFF
    ensures GrowTableAsWritten(table, aid) == GrowTable(table, aid)
  {
  }

  /** Marks the array busy, growing the table when `aid` is beyond it, and
      starts the computation; completion arrives as an array event. */
  function StartCompute(s: State, aid: u32): (o: Outcome)
    ensures o.state == s.(op := s.op.(curOp := Compute, arrayID := aid), arrayBusy := o.state.arrayBusy)
    ensures o.effects == [BeginComputation(aid)]
    ensures aid < |o.state.arrayBusy| && o.state.arrayBusy[aid]
    ensures |o.state.arrayBusy| == (if aid < |s.arrayBusy| then |s.arrayBusy| else aid + 1)
    ensures forall a :: 0 <= a < |s.arrayBusy| && a != aid ==> o.state.arrayBusy[a] == s.arrayBusy[a]
    ensures forall a :: |s.arrayBusy| <= a < |o.state.arrayBusy| && a != aid ==> !o.state.arrayBusy[a]
  {
    var table := GrowTable(s.arrayBusy, aid);
    Outcome(s.(op := s.op.(curOp := Compute, arrayID := aid), arrayBusy := table[aid := true]),
            [BeginComputation(aid)])
  }

  /** Packs the first `arrayOutputSize` values of the array's output vector
      `out` into a payload of `StoreBytes(c)` bytes and starts writing it to
      `dst`: an empty payload completes with 0 at once, otherwise the first
      chunk of the payload, from `dst` to the end of its line or of the
      payload, goes out. */
  function StartStoreVector(c: Config, s: State, dst: u64, aid: u32, out: seq<nat>): (o: Outcome)
    requires |s.queue| > 0 && |out| >= c.arrayOutputSize
    ensures var payload := Pack(out[..c.arrayOutputSize], c.outputOperandSize);
      && |payload| == StoreBytes(c)
      && (StoreBytes(c) == 0 ==> o == Outcome(CompleteRoCC(s, 0), []))
      && (StoreBytes(c) > 0 ==>
            && o.state == s.(op := o.state.op)
            && o.state.op == s.op.(curOp := StoreVec, arrayID := aid, wrBase := dst, writeOffset := 0,
                                   writeTotal := StoreBytes(c), outputPayload := payload)
            && |o.effects| == 1 && o.effects[0].Write? && o.effects[0].addr == dst
            && 0 < o.effects[0].size <= StoreBytes(c)
            && o.effects[0].size == Min(c.lineSize - dst % c.lineSize, StoreBytes(c))
            && o.effects[0].data == payload[..o.effects[0].size]
            && dst % c.lineSize + o.effects[0].size <= c.lineSize)
  {
    var vals := out[..c.arrayOutputSize];
    var payload := Pack(vals, c.outputOperandSize);
    assert |payload| == |vals| * c.outputOperandSize == StoreBytes(c);
    var t := s.(op := s.op.(curOp := StoreVec, arrayID := aid, wrBase := dst,
                            writeOffset := 0, writeTotal := StoreBytes(c), outputPayload := payload));
    DivModUnique(dst + 0, U64, 0, dst);
    assert (t.op.wrBase + t.op.writeOffset) % U64 == dst;
    SendNextWriteChunk(c, t)
  }

  /** One clock tick. When idle with a command queued, the head becomes the
      current command (it stays queued), the operation state is reset and
      `func7` selects the operation; anything but 1 to 5 completes with 1.
      `out` is what the compute array reports as the output vector of the
      command's array, read only by a store. */
  function Tick(c: Config, s: State, out: seq<nat>): (o: Outcome)
    requires Inv(c, s) && |out| >= c.arrayOutputSize
    ensures Inv(c, o.state)
    ensures s.busy || |s.queue| == 0 ==> o == Outcome(s, [])
  {
    if s.busy || |s.queue| == 0 then Outcome(s, [])
    else
      var cmd := s.queue[0];
      var t := s.(busy := true, op := Neutral);
      if cmd.func7 == 1 then StartSetMatrix(c, t, cmd.rs1, cmd.rs2 % U32)
      else if cmd.func7 == 2 then StartLoadVector(c, t, cmd.rs1, cmd.rs2 % U32)
      else if cmd.func7 == 3 then StartCompute(t, cmd.rs2 % U32)
      else if cmd.func7 == 4 then StartStoreVector(c, t, cmd.rs1, cmd.rs2 % U32, out)
      else if cmd.func7 == 5 then
        Outcome(CompleteRoCC(t, 0), [MoveOutputToInput(cmd.rs1 % U32, cmd.rs2 % U32)])
      else Outcome(CompleteRoCC(t, 1), [])
  }

  /** A read response. A failure, or a response while the pending operation
      is not a read, completes with 1. Otherwise the bytes are stored as
      elements, the offset advances by their number, and the next chunk is
      requested or the command completes with 0. */
  function HandleReadResp(c: Config, s: State, data: seq<byte>, fail: bool): (o: Outcome)
    requires Inv(c, s) && s.busy
    ensures Inv(c, o.state)
    ensures fail || s.op.curOp !in {SetMatrix, LoadVec} ==> o == Outcome(CompleteRoCC(s, 1), [])
  {
    if fail || s.op.curOp !in {SetMatrix, LoadVec} then
      CompleteKeepsInv(c, s, 1);
      Outcome(CompleteRoCC(s, 1), [])
    else StoreReadData(c, s, data)
  }

  /** The successful half of a read response while a read is pending. */
  function StoreReadData(c: Config, s: State, data: seq<byte>): (o: Outcome)
    requires Inv(c, s) && s.busy && s.op.curOp in {SetMatrix, LoadVec}
    ensures Inv(c, o.state)
  {
    ReadBytesNeedWidth(c);
    var target := if s.op.curOp == SetMatrix then Matrix else Vector;
    var items := ElementItems(target, s.op.arrayID, s.op.readOffset, data, c.inputOperandSize);
    var t := s.(op := s.op.(readOffset := (s.op.readOffset + |data|) % U64));
    if t.op.readOffset < t.op.readTotal then
      OffsetMoveKeepsInv(c, s, t);
      Outcome(t, items + [ReadRequest(c, t.op)])
    else
      CompleteKeepsInv(c, t, 0);
      Outcome(CompleteRoCC(t, 0), items)
  }

  /** A write response. A failure, or a response while the pending
      operation is not a store, completes with 1. Otherwise the offset
      advances by the size of the chunk that was sent, recomputed from the
      offset and alignment because the response does not carry it, and the
      next chunk is sent or the command completes with 0. */
  function HandleWriteResp(c: Config, s: State, fail: bool): (o: Outcome)
    requires Inv(c, s) && s.busy
    ensures Inv(c, o.state)
    ensures fail || s.op.curOp != StoreVec ==> o == Outcome(CompleteRoCC(s, 1), [])
  {
    if fail || s.op.curOp != StoreVec then
      CompleteKeepsInv(c, s, 1);
      Outcome(CompleteRoCC(s, 1), [])
    else AdvanceWrite(c, s)
  }

  /** The successful half of a write response while a store is pending. */
  function AdvanceWrite(c: Config, s: State): (o: Outcome)
    requires Inv(c, s) && s.busy && s.op.curOp == StoreVec
    ensures Inv(c, o.state)
  {
    var off := s.op.writeOffset;
    var last := if off == 0 then Min(c.lineSize - ((s.op.wrBase + off) % U64) % c.lineSize, s.op.writeTotal - off)
                else Min(c.lineSize, s.op.writeTotal - off);
    var t := s.(op := s.op.(writeOffset := (off + last) % U64));
    if t.op.writeOffset < t.op.writeTotal then
      OffsetMoveKeepsInv(c, s, t);
      SendNextWriteChunk(c, t)
    else
      CompleteKeepsInv(c, t, 0);
      Outcome(CompleteRoCC(t, 0), [])
  }

  lemma CompleteKeepsInv(c: Config, s: State, value: u64)
    requires |s.arrayBusy| >= c.numArrays && |s.queue| > 0
    ensures Inv(c, CompleteRoCC(s, value))
  {
  }

  /** Moving the offset of a pending transfer forward, short of its total,
      keeps the invariant. */
  lemma OffsetMoveKeepsInv(c: Config, s: State, t: State)
    requires Inv(c, s) && s.busy
    requires t.queue == s.queue && t.busy && t.arrayBusy == s.arrayBusy
    requires s.op.curOp in {SetMatrix, LoadVec} ==>
               t.op == s.op.(readOffset := t.op.readOffset) && t.op.readOffset < t.op.readTotal
    requires s.op.curOp == StoreVec ==>
               t.op == s.op.(writeOffset := t.op.writeOffset) && t.op.writeOffset < t.op.writeTotal
    requires s.op.curOp in {SetMatrix, LoadVec, StoreVec}
    ensures Inv(c, t)
  {
  }

  lemma {:induction false} ItemsAreNotRequests(target: Target, aid: u32, before: nat, bytes: seq<byte>, width: nat)
    requires 0 < width
    ensures Requests(ElementItems(target, aid, before, bytes, width)) == []
    decreases |bytes|
  {
    if |bytes| > 0 {
      var n := Min(width, |bytes|);
      var items := ElementItems(target, aid, before, bytes, width);
      ItemsAreNotRequests(target, aid, before + width, bytes[n..], width);
      assert items[1..] == ElementItems(target, aid, before + width, bytes[n..], width);
    }
  }

  /** Filtering requests distributes over concatenation. */
  lemma {:induction false} RequestsAppend(a: seq<Effect>, b: seq<Effect>)
    ensures Requests(a + b) == Requests(a) + Requests(b)
  {
    if |a| > 0 {
      assert (a + b)[1..] == a[1..] + b;
      RequestsAppend(a[1..], b);
    } else {
      assert a + b == b;
    }
  }

  /** The compute array reports that array `aid` finished. Its busy flag is
      cleared when `aid` is inside the table, and a pending compute
      completes with 0, whichever array it was waiting on. */
  function HandleArrayEvent(c: Config, s: State, aid: u32): (o: Outcome)
    requires Inv(c, s)
    ensures Inv(c, o.state) && o.effects == []
  {
    var table := if aid < |s.arrayBusy| then s.arrayBusy[aid := false] else s.arrayBusy;
    var t := s.(arrayBusy := table);
    if s.op.curOp == Compute then Outcome(CompleteRoCC(t, 0), [])
    else Outcome(t, [])
  }

  /** The memory requests among `effs`, in order. */
  function Requests(effs: seq<Effect>): seq<Effect>
  {
    if |effs| == 0 then []
    else (if effs[0].Read? || effs[0].Write? then [effs[0]] else []) + Requests(effs[1..])
  }

  /** An effect is among `Requests(effs)` exactly when it is a read or write of `effs`. */
  lemma {:induction false} RequestsFilter(effs: seq<Effect>)
    ensures forall e :: e in Requests(effs) ==> e in effs && (e.Read? || e.Write?)
    ensures forall e :: e in effs && (e.Read? || e.Write?) ==> e in Requests(effs)
  {
    if |effs| > 0 {
      RequestsFilter(effs[1..]);
      assert effs == [effs[0]] + effs[1..];
    }
  }
}

=== FILE: runs.dfy ===
/** Runs: the interface driven by a sequence of events from the host, the
    clock, the memory service and the compute array. Every run keeps the
    invariant, never has more than one memory request in flight, and a
    host that checks `RoCCFull` before each push never overfills the
    queue. */
module RoCCRuns {
  import opened Basics
  import opened Words
  import opened RoCCState
  import opened RoCC
  import opened RoCCProps

  /** What can happen to the interface: the host pushes a command or
      collects the response, the clock ticks (with the output vector the
      compute array reports for a store), memory answers the outstanding
      read or write, or the compute array reports that an array finished. */
  datatype Event =
    | HostPush(cmd: Command)
    | HostRespond
    | Clock(out: seq<nat>)
    | ReadResp(data: seq<byte>, fail: bool)
    | WriteResp(fail: bool)
    | ArrayDone(aid: u32)

  /** The events the interface can take in `s`: a memory response only
      while a command is being served (the handlers reach into the current
      command), and a tick only with an output vector of at least
      `arrayOutputSize` values. */
  predicate Enabled(c: Config, s: State, e: Event)
  {
    match e
    case Clock(out) => |out| >= c.arrayOutputSize
    case ReadResp(_, _) => s.busy
    case WriteResp(_) => s.busy
    case _ => true
  }

  function Step(c: Config, s: State, e: Event): (o: Outcome)
    requires Inv(c, s) && Enabled(c, s, e)
    ensures Inv(c, o.state)
  {
    match e
    case HostPush(cmd) =>
      PushKeepsInv(c, s, cmd);
      Outcome(Push(s, cmd), [])
    case HostRespond => Outcome(Respond(s).0, [])
    case Clock(out) => Tick(c, s, out)
    case ReadResp(data, fail) => HandleReadResp(c, s, data, fail)
    case WriteResp(fail) => HandleWriteResp(c, s, fail)
    case ArrayDone(aid) => HandleArrayEvent(c, s, aid)
  }

  /** Every event of `es` is enabled in the state the earlier ones lead to. */
  predicate Valid(c: Config, s: State, es: seq<Event>)
    requires Inv(c, s)
    decreases |es|
  {
    |es| == 0 || (Enabled(c, s, es[0]) && Valid(c, Step(c, s, es[0]).state, es[1..]))
  }

  /** The state after the events `es` and everything they made the
      interface do, in order. */
  function Run(c: Config, s: State, es: seq<Event>): (r: Outcome)
    requires Inv(c, s) && Valid(c, s, es)
    ensures Inv(c, r.state)
    decreases |es|
  {
    if |es| == 0 then Outcome(s, [])
    else
      var o := Step(c, s, es[0]);
      var rest := Run(c, o.state, es[1..]);
      Outcome(rest.state, o.effects + rest.effects)
  }

  /** A run of `es` followed by `e` takes `e` in the state the run of `es`
      leaves, and its effects follow those of `es`. */
  lemma {:induction false} RunSnoc(c: Config, s: State, es: seq<Event>, e: Event)
    requires Inv(c, s) && Valid(c, s, es) && Enabled(c, Run(c, s, es).state, e)
    ensures Valid(c, s, es + [e])
    ensures var o := Run(c, s, es);
      var last := Step(c, o.state, e);
      Run(c, s, es + [e]) == Outcome(last.state, o.effects + last.effects)
    decreases |es|
  {
    if |es| == 0 {
      assert es + [e] == [e];
      assert [e][1..] == [];
      var last := Step(c, s, e);
      assert last.effects + [] == last.effects;
    } else {
      var first := Step(c, s, es[0]);
      assert (es + [e])[0] == es[0];
      assert (es + [e])[1..] == es[1..] + [e];
      RunSnoc(c, first.state, es[1..], e);
      var mid := Run(c, first.state, es[1..]);
      var last := Step(c, mid.state, e);
      AppendAssoc(first.effects, mid.effects, last.effects);
    }
  }

  /** A run that starts with `e` takes `e` first, then runs the rest from
      the state `e` leads to, its effects after those of `e`. */
  lemma RunCons(c: Config, s: State, e: Event, es: seq<Event>)
    requires Inv(c, s) && Enabled(c, s, e) && Valid(c, Step(c, s, e).state, es)
    ensures Valid(c, s, [e] + es)
    ensures var first := Step(c, s, e); var rest := Run(c, first.state, es);
      Run(c, s, [e] + es) == Outcome(rest.state, first.effects + rest.effects)
  {
    assert ([e] + es)[0] == e && ([e] + es)[1..] == es;
  }

  /** Only a push grows the queue, by its command at the tail; any other
      event leaves the queue alone or retires exactly its head. */
  lemma StepQueue(c: Config, s: State, e: Event)
    requires Inv(c, s) && Enabled(c, s, e)
    ensures var q := Step(c, s, e).state.queue;
      && (e.HostPush? ==> q == s.queue + [e.cmd])
      && (!e.HostPush? ==> q == s.queue || (|s.queue| > 0 && q == s.queue[1..]))
  {
    match e
    case Clock(out) =>
      if !s.busy && |s.queue| > 0 {
        var f := s.queue[0].func7;
        if f == 1 || f == 2 {
          TickLoad(c, s, out);
        } else if f == 3 {
          TickCompute(c, s, out);
        } else if f == 4 {
          TickStore(c, s, out);
        } else if f == 5 {
          TickMoveVector(c, s, out);
        } else {
          TickUnknownOpcode(c, s, out);
        }
      }
    case ReadResp(data, fail) =>
      ReadQueue(c, s, data, fail);
    case WriteResp(fail) =>
      WriteQueue(c, s, fail);
    case _ =>
  }

  lemma ReadQueue(c: Config, s: State, data: seq<byte>, fail: bool)
    requires Inv(c, s) && s.busy
    ensures var q := HandleReadResp(c, s, data, fail).state.queue;
      q == s.queue || q == s.queue[1..]
  {
    if !fail && s.op.curOp in {SetMatrix, LoadVec} {
      var t := s.(op := s.op.(readOffset := (s.op.readOffset + |data|) % U64));
      assert HandleReadResp(c, s, data, fail) == StoreReadData(c, s, data);
      assert StoreReadData(c, s, data).state.queue == t.queue || StoreReadData(c, s, data).state == CompleteRoCC(t, 0);
    }
  }

  lemma WriteQueue(c: Config, s: State, fail: bool)
    requires Inv(c, s) && s.busy
    ensures var q := HandleWriteResp(c, s, fail).state.queue;
      q == s.queue || q == s.queue[1..]
  {
    if !fail && s.op.curOp == StoreVec {
      WriteResponseAdvances(c, s);
    }
  }

  /** The host pushes only when `RoCCFull` reports room. */
  predicate Polite(c: Config, s: State, es: seq<Event>)
    requires Inv(c, s) && Valid(c, s, es)
    decreases |es|
  {
    |es| == 0 ||
    ((es[0].HostPush? ==> !RoCCFull(c, s)) && Polite(c, Step(c, s, es[0]).state, es[1..]))
  }

  /** A host that consults `RoCCFull` before every push never has more
      than `maxInstructions` commands queued. */
  lemma {:induction false} PoliteRunStaysBounded(c: Config, s: State, es: seq<Event>)
    requires Inv(c, s) && Valid(c, s, es) && Polite(c, s, es) && |s.queue| <= c.maxInstructions
    ensures |Run(c, s, es).state.queue| <= c.maxInstructions
    decreases |es|
  {
    if |es| > 0 {
      StepQueue(c, s, es[0]);
      PoliteRunStaysBounded(c, Step(c, s, es[0]).state, es[1..]);
    }
  }

  /** The number of host pushes among `es`. */
  function Pushes(es: seq<Event>): (n: nat)
    ensures n <= |es|
    decreases |es|
  {
    if |es| == 0 then 0 else (if es[0].HostPush? then 1 else 0) + Pushes(es[1..])
  }

  /** `roccQueueSize` over a run: the queue gains exactly one command per
      push and loses at most one per other event, so its size never exceeds
      the start plus the pushes and never falls below the start plus the
      pushes minus the other events. */
  lemma {:induction false} RunQueueSize(c: Config, s: State, es: seq<Event>)
    requires Inv(c, s) && Valid(c, s, es)
    ensures RoCCQueueSize(Run(c, s, es).state) <= RoCCQueueSize(s) + Pushes(es)
    ensures RoCCQueueSize(s) + Pushes(es) <= RoCCQueueSize(Run(c, s, es).state) + (|es| - Pushes(es))
    decreases |es|
  {
    if |es| > 0 {
      StepQueue(c, s, es[0]);
      RunQueueSize(c, Step(c, s, es[0]).state, es[1..]);
    }
  }

  /** A single push made regardless of `RoCCFull` overfills a full queue:
      capacity is the caller's to check. */
  lemma ImpoliteOverfills(c: Config, s: State, cmd: Command)
    requires Inv(c, s) && |s.queue| == c.maxInstructions
    ensures |Run(c, s, [HostPush(cmd)]).state.queue| == c.maxInstructions + 1
  {
    assert [HostPush(cmd)][1..] == [];
  }

  /** One request in flight: an event issues at most one memory request,
      the request it issues is the one the interface then waits on, and
      no request goes out while one is outstanding except in answer to a
      memory response. */
  lemma SingleFlight(c: Config, s: State, e: Event)
    requires Inv(c, s) && Enabled(c, s, e)
    ensures var o := Step(c, s, e);
      var rs := Requests(o.effects);
      && |rs| <= 1
      && (|rs| == 1 ==> Outstanding(c, o.state) == Some(rs[0]))
      && (Outstanding(c, s).Some? && !e.ReadResp? && !e.WriteResp? ==> rs == [])
  {
    match e
    case Clock(out) =>
      TickRequests(c, s, out);
    case ReadResp(data, fail) =>
      ReadRequestsAfter(c, s, data, fail);
    case WriteResp(fail) =>
      if !fail && s.op.curOp == StoreVec {
        WriteResponseAdvances(c, s);
      }
    case _ =>
  }

  lemma TickRequests(c: Config, s: State, out: seq<nat>)
    requires Inv(c, s) && |out| >= c.arrayOutputSize
    ensures var o := Tick(c, s, out);
      var rs := Requests(o.effects);
      && |rs| <= 1
      && (|rs| == 1 ==> Outstanding(c, o.state) == Some(rs[0]))
      && (s.busy ==> rs == [])
  {
    if !s.busy && |s.queue| > 0 {
      var f := s.queue[0].func7;
      if f == 1 || f == 2 {
        TickLoad(c, s, out);
      } else if f == 3 {
        TickCompute(c, s, out);
      } else if f == 4 {
        TickStore(c, s, out);
      } else if f == 5 {
        TickMoveVector(c, s, out);
      } else {
        TickUnknownOpcode(c, s, out);
      }
    }
  }

  lemma ReadRequestsAfter(c: Config, s: State, data: seq<byte>, fail: bool)
    requires Inv(c, s) && s.busy
    ensures var o := HandleReadResp(c, s, data, fail);
      var rs := Requests(o.effects);
      && |rs| <= 1
      && (|rs| == 1 ==> Outstanding(c, o.state) == Some(rs[0]))
  {
    if !fail && s.op.curOp in {SetMatrix, LoadVec} {
      ReadBytesNeedWidth(c);
      var target := if s.op.curOp == SetMatrix then Matrix else Vector;
      var items := ElementItems(target, s.op.arrayID, s.op.readOffset, data, c.inputOperandSize);
      ItemsAreNotRequests(target, s.op.arrayID, s.op.readOffset, data, c.inputOperandSize);
      var t := s.(op := s.op.(readOffset := (s.op.readOffset + |data|) % U64));
      if t.op.readOffset < t.op.readTotal {
        RequestsAppend(items, [ReadRequest(c, t.op)]);
      }
    }
  }
}

=== FILE: state.dfy ===
/** The command interface's configuration, commands, pending-operation
    record and whole state; the effects it has on the memory service and
    the compute array; and the invariant every reachable state keeps. */
module RoCCState {
  import opened Basics
  import opened Words
  import opened Chunking

  /** The memory's line size as the interface uses it: never zero. */
  type LineSize = x: int | 0 < x < 0x1_0000_0000 witness 64

  /** Sizes fixed at construction and the line size learned at init. */
  datatype Config = Config(
    numArrays: u32,
    arrayInputSize: u32,
    arrayOutputSize: u32,
    inputOperandSize: u32,
    outputOperandSize: u32,
    lineSize: LineSize,
    maxInstructions: u64)

  /** A host command: the instruction's `func7` selector, the two source
      register values and the destination register of the result. */
  datatype Command = Command(func7: nat, rs1: u64, rs2: u64, rd: nat)

  /** The result handed back to the host for one command. */
  datatype Response = Response(rd: nat, value: u64)

  datatype CurOp = NoOp | SetMatrix | LoadVec | StoreVec | Compute

  /** The pending operation: which kind, for which array, and how far its
      read or write transfer has got. */
  datatype OpState = OpState(
    curOp: CurOp,
    arrayID: u32,
    rdBase: u64,
    readOffset: u64,
    readTotal: u64,
    wrBase: u64,
    writeOffset: u64,
    writeTotal: u64,
    outputPayload: seq<byte>)

  /** The state every command starts from and every completion returns to. */
  const Neutral := OpState(NoOp, 0, 0, 0, 0, 0, 0, 0, [])

  datatype State = State(
    queue: seq<Command>,
    busy: bool,
    resp: Option<Response>,
    issued: nat,
    arrayBusy: seq<bool>,
    op: OpState)

  datatype Target = Matrix | Vector

  /** What the interface asks of its collaborators: a memory read or write,
      an element store into an array's matrix or input vector, the start of
      a computation, or a synchronous output-to-input move. An element
      store carries the bytes copied into the element; the element's value
      is `Value(image)`. */
  datatype Effect =
    | Read(addr: u64, size: nat)
    | Write(addr: u64, size: nat, data: seq<byte>)
    | SetItem(target: Target, aid: u32, idx: nat, image: seq<byte>)
    | BeginComputation(aid: u32)
    | MoveOutputToInput(src: u32, dst: u32)

  /** The state after an event and the effects it had, in order. */
  datatype Outcome = Outcome(state: State, effects: seq<Effect>)

  /** Bytes of a whole matrix (rows × columns × input operand width), in
      64-bit arithmetic. */
  function MatrixBytes(c: Config): u64
  {
    (c.arrayOutputSize * c.arrayInputSize * c.inputOperandSize) % U64
  }

  /** Bytes of an input vector; the product of two 32-bit sizes cannot wrap. */
  function VectorBytes(c: Config): u64
  {
    MulFitsU64(c.arrayInputSize, c.inputOperandSize);
    c.arrayInputSize * c.inputOperandSize
  }

  /** Bytes of an output vector. */
  function StoreBytes(c: Config): u64
  {
    MulFitsU64(c.arrayOutputSize, c.outputOperandSize);
    c.arrayOutputSize * c.outputOperandSize
  }

  /** A matrix or vector with any bytes at all has a non-zero operand width. */
  lemma ReadBytesNeedWidth(c: Config)
    ensures MatrixBytes(c) > 0 ==> c.inputOperandSize > 0
    ensures VectorBytes(c) > 0 ==> c.inputOperandSize > 0
  {
  }

  /** The read request for the next chunk of the pending read. */
  function ReadRequest(c: Config, op: OpState): Effect
    requires op.readOffset < op.readTotal
  {
    var addr := (op.rdBase + op.readOffset) % U64;
    Read(addr, ChunkSize(c.lineSize, addr, op.readOffset, op.readTotal))
  }

  /** The write request for the next chunk of the pending write: the slice
      of the payload that starts at the write offset. */
  function WriteRequest(c: Config, op: OpState): Effect
    requires op.writeOffset < op.writeTotal <= |op.outputPayload|
  {
    var addr := (op.wrBase + op.writeOffset) % U64;
    var n := ChunkSize(c.lineSize, addr, op.writeOffset, op.writeTotal);
    Write(addr, n, op.outputPayload[op.writeOffset .. op.writeOffset + n])
  }

  /** The value of an element whose bytes are `image`: the bytes are
      copied over the element's storage, least significant first. */
  function Value(image: seq<byte>): nat
  {
    DecodeLE(image)
  }

  /** One element store per `width` bytes of a read response, the element
      at byte `i` of the response going to index `(before + i) / width`.
      A last element shorter than `width` gets the bytes there are. */
  function ElementItems(target: Target, aid: u32, before: nat, bytes: seq<byte>, width: nat): seq<Effect>
    requires 0 < width
    decreases |bytes|
  {
    if |bytes| == 0 then []
    else
      var n := Min(width, |bytes|);
      [SetItem(target, aid, before / width, bytes[..n])]
        + ElementItems(target, aid, before + width, bytes[n..], width)
  }

  /** The pending operation is a read of `total` bytes from `base` that has
      not finished, with every write field neutral. */
  predicate Reading(op: OpState, base: u64, total: u64)
  {
    && op.rdBase == base && op.readTotal == total && op.readOffset < total
    && op.wrBase == 0 && op.writeOffset == 0 && op.writeTotal == 0 && op.outputPayload == []
  }

  /** The pending operation is a write of `total` bytes to `base` that has
      not finished, with a payload of exactly `total` bytes and every read
      field neutral. */
  predicate Writing(op: OpState, base: u64, total: u64)
  {
    && op.wrBase == base && op.writeTotal == total && op.writeOffset < total
    && |op.outputPayload| == total
    && op.rdBase == 0 && op.readOffset == 0 && op.readTotal == 0
  }

  /** The pending operation is the one that decoding `cmd` started, still in
      progress. */
  predicate Serving(c: Config, op: OpState, cmd: Command, arrayBusy: seq<bool>)
  {
    && op.arrayID == cmd.rs2 % U32
    && match op.curOp
       case NoOp => false
       case SetMatrix => cmd.func7 == 1 && Reading(op, cmd.rs1, MatrixBytes(c))
       case LoadVec => cmd.func7 == 2 && Reading(op, cmd.rs1, VectorBytes(c))
       case StoreVec => cmd.func7 == 4 && Writing(op, cmd.rs1, StoreBytes(c))
       case Compute =>
         && cmd.func7 == 3
         && op == Neutral.(curOp := Compute, arrayID := op.arrayID)
         && op.arrayID < |arrayBusy| && arrayBusy[op.arrayID]
  }

  /** Every reachable state: the busy table covers the configured arrays;
      when busy, the queue head is the command being served; when idle,
      the pending operation is neutral. */
  predicate Inv(c: Config, s: State)
  {
    && |s.arrayBusy| >= c.numArrays
    && (s.busy ==> |s.queue| > 0 && Serving(c, s.op, s.queue[0], s.arrayBusy))
    && (!s.busy ==> s.op == Neutral)
  }

  /** The memory request the interface is waiting on, if any. */
  function Outstanding(c: Config, s: State): Option<Effect>
  {
    if !s.busy then None
    else if (s.op.curOp == SetMatrix || s.op.curOp == LoadVec) && s.op.readOffset < s.op.readTotal then
      Some(ReadRequest(c, s.op))
    else if s.op.curOp == StoreVec && s.op.writeOffset < s.op.writeTotal <= |s.op.outputPayload| then
      Some(WriteRequest(c, s.op))
    else None
  }

  /** A reachable state waits on memory exactly while it serves a transfer
      command, and what it waits on is a read for a read command and a
      write for a store. */
  lemma OutstandingMatchesOp(c: Config, s: State)
    requires Inv(c, s)
    ensures Outstanding(c, s).Some? <==> s.busy && s.op.curOp in {SetMatrix, LoadVec, StoreVec}
    ensures Outstanding(c, s).Some? ==> (Outstanding(c, s).value.Read? <==> s.op.curOp != StoreVec)
  {
  }
}

=== FILE: words.dfy ===
/** Fixed-width machine words and the byte codec used for operand values
    that cross the memory interface.

    The accelerator is a C++ template over its element type. The model
    keeps an element as its bit pattern (a natural number) and copies it to
    and from memory least-significant byte first, which is what `memcpy`
    of a host value does on a little-endian host. */
module Words {

  const U32: nat := 0x1_0000_0000
  const U64: nat := 0x1_0000_0000_0000_0000

  /** `uint32_t`, `uint64_t` and `uint8_t`. Where the source wraps around,
      the model reduces modulo the width explicitly. */
  type u32 = x: int | 0 <= x < 0x1_0000_0000
  type u64 = x: int | 0 <= x < 0x1_0000_0000_0000_0000
  type byte = x: int | 0 <= x < 0x100

  /** Quotient and remainder are determined by any decomposition
      `v == m * q + r` with `0 <= r < m`. */
  lemma DivModUnique(v: int, m: int, q: int, r: int)
    requires 0 < m && 0 <= r < m && v == m * q + r
    ensures v / m == q && v % m == r
  {
    var q0, r0 := v / m, v % m;
    assert v == m * q0 + r0;
    assert m * (q - q0) == r0 - r;
    if q - q0 >= 1 {
      MulAtLeast(m, q - q0);
    } else if q0 - q >= 1 {
      MulAtLeast(m, q0 - q);
    }
  }

  /** Adding the divisor adds one to the quotient. */
  lemma DivStep(v: nat, m: nat)
    requires 0 < m
    ensures (v + m) / m == v / m + 1
  {
    var q, r := v / m, v % m;
    assert m * (q + 1) == m * q + m;
    DivModUnique(v + m, m, q + 1, r);
  }

  /** A non-empty length of at most `m` is one started block of `m`, and
      the empty length is none. */
  lemma CeilSmall(a: nat, m: nat)
    requires 0 < m && a <= m
    ensures (a + m - 1) / m == (if a == 0 then 0 else 1)
  {
    if a == 0 {
      DivModUnique(m - 1, m, 0, m - 1);
    } else {
      DivModUnique(a + m - 1, m, 1, a - 1);
    }
  }

  /** A multiple of `m` stays one after removing `m`. */
  lemma MultipleStep(v: nat, m: nat)
    requires 0 < m <= v && v % m == 0
    ensures (v - m) % m == 0
  {
    DivStep(v - m, m);
    DivModUnique(v, m, v / m, 0);
    DivModUnique(v - m, m, v / m - 1, 0);
  }

  /** Multiples of `m` are closed under difference and sum. */
  lemma MultipleDiff(a: nat, b: nat, m: nat)
    requires 0 < m && b <= a && a % m == 0 && b % m == 0
    ensures (a - b) % m == 0
  {
    var qa, qb := a / m, b / m;
    DivModUnique(a, m, qa, 0);
    DivModUnique(b, m, qb, 0);
    assert a - b == m * (qa - qb);
    DivModUnique(a - b, m, qa - qb, 0);
  }

  lemma MultipleSum(a: nat, b: nat, m: nat)
    requires 0 < m && a % m == 0 && b % m == 0
    ensures (a + b) % m == 0
  {
    var qa, qb := a / m, b / m;
    DivModUnique(a, m, qa, 0);
    DivModUnique(b, m, qb, 0);
    assert a + b == m * (qa + qb);
    DivModUnique(a + b, m, qa + qb, 0);
  }

  lemma MultipleMul(a: nat, k: nat, m: nat)
    requires 0 < m && a % m == 0
    ensures (a * k) % m == 0
  {
    var qa := a / m;
    DivModUnique(a, m, qa, 0);
    assert a * k == m * (qa * k);
    DivModUnique(a * k, m, qa * k, 0);
  }

  /** A positive multiple of `m` is at least `m`. */
  lemma MultipleAtLeast(v: nat, m: nat)
    requires 0 < m && 0 < v && v % m == 0
    ensures m <= v
  {
    if v < m {
      DivModUnique(v, m, 0, v);
    }
  }

  /** A slice of a suffix is a slice of the whole, shifted. */
  lemma SuffixSlice<T>(s: seq<T>, n: nat, a: nat, b: nat)
    requires n <= |s| && a <= b <= |s| - n
    ensures s[n..][a..b] == s[n + a .. n + b]
  {
  }

  /** A suffix splits at any later point. */
  lemma SplitAt<T>(s: seq<T>, a: nat, b: nat)
    requires a <= b <= |s|
    ensures s[a..] == s[a..b] + s[b..]
  {
  }

  /** A slice grows by one element at its end. */
  lemma SliceSnoc<T>(s: seq<T>, a: nat, b: nat)
    requires a <= b < |s|
    ensures s[a .. b + 1] == s[a..b] + [s[b]]
  {
  }

  /** The head and tail of a concatenation whose left part is not empty. */
  lemma TailAppend<T>(a: seq<T>, b: seq<T>)
    requires |a| > 0
    ensures (a + b)[0] == a[0] && (a + b)[1..] == a[1..] + b
  {
  }

  lemma AppendAssoc<T>(a: seq<T>, b: seq<T>, c: seq<T>)
    ensures a + (b + c) == (a + b) + c
  {
  }

  lemma MulSucc(k: nat, m: nat)
    ensures (k + 1) * m == k * m + m
  {
  }

  lemma MulAtLeast(m: nat, d: int)
    requires d >= 1
    ensures m * d >= m
  {
  }

  /** The product of two 32-bit quantities never wraps in 64 bits. */
  lemma MulFitsU64(a: u32, b: u32)
    ensures a * b < U64
  {
    MulMonotone(a, b, U32 - 1);
    MulMonotone(U32 - 1, a, U32 - 1);
  }

  /** A positive product of naturals has positive factors. */
  lemma MulPositive(a: nat, b: nat)
    requires 0 < a * b
    ensures 0 < a && 0 < b
  {
  }

  lemma MulMonotone(k: nat, x: nat, y: nat)
    requires x <= y
    ensures k * x <= k * y
  {
    var d: nat := y - x;
    assert k * y == k * x + k * d;
  }

  function Pow256(n: nat): (p: nat)
    ensures p >= 1
  {
    if n == 0 then 1 else 256 * Pow256(n - 1)
  }

  /** The low `width` bytes of `v`, least significant first. */
  function EncodeLE(v: nat, width: nat): (bs: seq<byte>)
    ensures |bs| == width
  {
    if width == 0 then [] else [v % 256] + EncodeLE(v / 256, width - 1)
  }

  /** The value whose little-endian representation is `bs`. */
  function DecodeLE(bs: seq<byte>): (v: nat)
    ensures v < Pow256(|bs|)
  {
    if |bs| == 0 then 0 else bs[0] + 256 * DecodeLE(bs[1..])
  }

  /** Decoding what was encoded at width `w` gives back the value reduced
      to `w` bytes. */
  lemma {:induction false} DecodeEncode(v: nat, width: nat)
    ensures DecodeLE(EncodeLE(v, width)) == v % Pow256(width)
  {
    if width == 0 {
      assert v % 1 == 0;
    } else {
      var p := Pow256(width - 1);
      var e := EncodeLE(v / 256, width - 1);
      assert EncodeLE(v, width)[1..] == e;
      DecodeEncode(v / 256, width - 1);
      var q2, r2 := (v / 256) / p, (v / 256) % p;
      assert v / 256 == p * q2 + r2;
      assert v == 256 * (v / 256) + v % 256;
      assert v == (256 * p) * q2 + (v % 256 + 256 * r2);
      DivModUnique(v, 256 * p, q2, v % 256 + 256 * r2);
    }
  }

  /** Encoding a decoded byte string at its own width gives it back. */
  lemma {:induction false} EncodeDecode(bs: seq<byte>)
    ensures EncodeLE(DecodeLE(bs), |bs|) == bs
  {
    if |bs| > 0 {
      var d := DecodeLE(bs[1..]);
      DivModUnique(DecodeLE(bs), 256, d, bs[0]);
      EncodeDecode(bs[1..]);
      assert [bs[0]] + bs[1..] == bs;
    }
  }

  /** The values of `vals`, each encoded at `width` bytes, back to back. */
  function Pack(vals: seq<nat>, width: nat): (p: seq<byte>)
    ensures |p| == |vals| * width
  {
    if |vals| == 0 then [] else EncodeLE(vals[0], width) + Pack(vals[1..], width)
  }

  /** Value `i` occupies bytes `[i * width, (i + 1) * width)` of the packing. */
  lemma {:induction false} PackLayout(vals: seq<nat>, width: nat, i: nat)
    requires i < |vals|
    ensures i * width + width <= |Pack(vals, width)|
    ensures Pack(vals, width)[i * width .. i * width + width] == EncodeLE(vals[i], width)
  {
    var p := Pack(vals, width);
    var head := EncodeLE(vals[0], width);
    var rest := Pack(vals[1..], width);
    assert p == head + rest;
    if i > 0 {
      PackLayout(vals[1..], width, i - 1);
      assert (i - 1) * width + width == i * width;
      assert p[i * width .. i * width + width] == rest[(i - 1) * width .. (i - 1) * width + width];
    } else {
      assert p[0 .. width] == head;
    }
  }

  /** The values of consecutive `width`-byte groups of `bs`; a short tail
      is ignored. */
  function Unpack(bs: seq<byte>, width: nat): (vals: seq<nat>)
    requires 0 < width
    decreases |bs|
  {
    if |bs| < width then [] else [DecodeLE(bs[..width])] + Unpack(bs[width..], width)
  }

  /** Each value reduced to what fits in `width` bytes. */
  function Reduced(vals: seq<nat>, width: nat): (r: seq<nat>)
    ensures |r| == |vals|
    ensures forall i :: 0 <= i < |vals| ==> r[i] == vals[i] % Pow256(width)
  {
    if |vals| == 0 then [] else [vals[0] % Pow256(width)] + Reduced(vals[1..], width)
  }

  /** Unpacking a packing gives back every value reduced to `width` bytes. */
  lemma {:induction false} UnpackPack(vals: seq<nat>, width: nat)
    requires 0 < width
    ensures Unpack(Pack(vals, width), width) == Reduced(vals, width)
  {
    if |vals| > 0 {
      var head := EncodeLE(vals[0], width);
      var rest := Pack(vals[1..], width);
      assert Pack(vals, width) == head + rest;
      assert (head + rest)[..width] == head;
      assert (head + rest)[width..] == rest;
      DecodeEncode(vals[0], width);
      UnpackPack(vals[1..], width);
    }
  }
}
